=== FILE: README.md ===
# Storefront core in Dafny

This project models the rules underneath a small sports-goods storefront:
- an Express/Mongoose REST API;
- a React cart page.

The model is made of pure functions over immutable data. A collection is a
sequence in the collection's natural order. Per-session carts are held in a
map from session id to lines.

Each handler returns a `Result`: either its value, or an error response.

| kind | HTTP status | used for |
|---|---|---|
| `Invalid` | 400 | the route's validation failed |
| `Forbidden` | 403 | the caller may not see the resource |
| `NotFound` | 404 | the entity is absent |
| `ServerError` | 500 | the handler throws on that input |

Each error carries the message text the route sends.

Modules:

- `Outcome`: the result type, the error kinds, and JavaScript truthiness.
  - `if (x)` and `x || d` are spelled out for optional strings and numbers.
  - A missing value, `""` and `0` are falsy.
- `Keyed`: lookup by key over a sequence.
  - The first match stands for `findIndex`, `findOne` and `findById`.
  - `Without` is the reference meaning of "remove the entry for this key".
  - Lemmas show that splicing out the first match equals `Without` when
    keys are distinct.
- `Ordering`: the store's `.sort()`. It is a functional insertion sort
  over a numeric or text key. It is proved to return a permutation that is
  sorted in the requested direction.
- `Catalog`: the product document.
  - Field constraints form a validity predicate.
  - `trim` is the ECMAScript white-space set.
  - `Create` applies the defaults and validates. It fails exactly when a
    required field is missing or a supplied field breaks its constraint.
- `ProductRoutes`: the product API.
  - Listing: the filter document, selection, the four sort options plus
    the newest-first default, and `count`.
  - Create: the route's falsy check, then `stock || 100`.
  - Get, update and delete, with their not-found branches.
- `Cart`: the edits both cart route sets make to a sequence of lines.
  - Add either increments a line in place or appends one.
  - Set-quantity overwrites a line, or deletes it at or below zero.
  - Remove splices a line out.
  - Uniqueness of product ids, the frame and the order of the other lines
    are proved.
- `CartRoutes`: the per-session cart API.
  - `getOrCreateCart` stores an empty cart before the handler continues.
  - A reply therefore carries the sessions as they stand afterwards, even
    when it is an error.
- `OrderModel`: the order document. It covers:
  - the five statuses and their names;
  - line items held by value;
  - the required `user` and `totalAmount`;
  - the defaults.
- `OrderRoutes`: the order API.
  - Placing an order.
  - The caller's orders and all orders, newest first.
  - The owner-or-admin read rule.
  - The status overwrite, with its Delivered payment stamps.
  - Deletion.
  - The caller is a plain `Identity(userId, role)`. Time is a `now`
    parameter.
- `LegacyServer`: the unprefixed `/products` and `/cart` routes of the
  server file, over one global cart. Lemmas set them against the prefixed
  API: where they agree, and where they differ.
  - The legacy routes have no input check.
  - A legacy create ignores stock.
  - A legacy delete of an absent item succeeds.
- `CartPage`: the cart page's pricing, its quantity and remove buttons, the
  cart-to-order snapshot, and checkout.
  - Prices are `real`, so the arithmetic is exact.
  - A line without a price makes the JavaScript sum `NaN`. This is modelled
    as an absent amount.

The status update overwrites the status unconditionally: any of the five
statuses may follow any other. Nothing in the program restricts this. The
admin page offers every status from a free selector
(`ecommerce-sports/src/components/AdminPage.jsx:524-534`). Its Process, Ship
and Deliver buttons (`AdminPage.jsx:536-558`) are disabled only while the
order already has that status. `OrderRoutes.AnyTransitionAccepted` states
that every transition is accepted.
`OrderRoutes.RegressionKeepsPayment` shows one consequence: a delivered
order moved back to Pending stays paid, with its delivery stamp.

`server/models/Cart.js` defines only a flat cart item, with no session id
and no item list. The session cart is therefore modelled from what
`cartRoutes.js` does with it.

## Model

| member | source | states |
|---|---|---|
| Keyed.IndexOf | ecommerce-sports/server/routes/cartRoutes.js:62-64 | the lookup gives -1 exactly when no element has the key; otherwise it gives the first element that has it |
| Keyed.RemoveFirstMatchIsWithout | ecommerce-sports/server/routes/cartRoutes.js:159-170 | when keys are distinct, splicing out the first match removes exactly the elements with that key and keeps the others in order |
| Ordering.Sort | ecommerce-sports/server/routes/productRoutes.js:42 | the result is a permutation of the input, sorted by the key in the requested direction |
| Catalog.Trim | ecommerce-sports/server/models/Product.js:7 | the trimmed string is the slice of the input that starts after its leading white space; only white space follows it; it has no white space at either end; it is empty exactly when the input is all white space |
| Catalog.Utf16Length | ecommerce-sports/server/models/Product.js:8 | the length the schema's `maxlength` measures lies between the number of characters and twice that number, and is 0 only for the empty string |
| Catalog.Utf16LengthAppend | ecommerce-sports/server/models/Product.js:8 | the UTF-16 length of a concatenation is the sum of the lengths |
| Catalog.AstralNameTooLong | ecommerce-sports/server/models/Product.js:4-9 | a name of 51 to 100 characters from outside the Basic Multilingual Plane, such as emoji, is refused although it has at most 100 characters |
| Catalog.TrimIdempotent | ecommerce-sports/server/models/Product.js:7 | trimming twice gives the same string as trimming once |
| Catalog.Create | ecommerce-sports/server/models/Product.js:3-40 | creation succeeds iff name, price and category are present and every supplied field meets its constraint; the result is valid, stores the trimmed name, the price, the category and the trimmed description when one is given, and carries the defaults: stock 100, the fixed image URL, available |
| Catalog.DefaultedValidIff | ecommerce-sports/server/models/Product.js:4-36 | the defaulted, trimmed document is valid exactly when the raw supplied fields pass their checks (name non-empty and at most 100 UTF-16 units after trim, price ≥ 0, one of four categories, description at most 500 UTF-16 units after trim, stock ≥ 0) |
| Catalog.ApplyPatch | ecommerce-sports/server/routes/productRoutes.js:157-164 | each supplied field replaces the stored one, with name and description trimmed; an absent field keeps the stored value; id and creation time are kept and `updatedAt` becomes `now` |
| Catalog.PatchKeepsValid | ecommerce-sports/server/routes/productRoutes.js:157-164 | an update whose supplied fields pass the validators keeps a valid product valid, with the same id and creation time |
| ProductRoutes.Select | ecommerce-sports/server/routes/productRoutes.js:17-32 | a product is selected iff it is in the catalog and satisfies the category, name and inclusive price-bound conditions that are present; a selected product appears as many times as in the catalog |
| ProductRoutes.SortOf | ecommerce-sports/server/routes/productRoutes.js:35-40 | each of the four option names selects its key and direction, and only that name does; every other value gives creation time, descending |
| ProductRoutes.List | ecommerce-sports/server/routes/productRoutes.js:42-47 | count equals the length of the data; the data is a permutation of the selection, sorted by the chosen key |
| ProductRoutes.ListMembership | ecommerce-sports/server/routes/productRoutes.js:17-32 | listed iff in the catalog and matching: equal category when a non-empty one is given, the name search when given, min ≤ price ≤ max for the bounds supplied |
| ProductRoutes.EmptyCategoryIsNoCategory | ecommerce-sports/server/routes/productRoutes.js:18-20 | an empty category parameter restricts nothing: the listing is the same as with no category |
| ProductRoutes.CreateProduct | ecommerce-sports/server/routes/productRoutes.js:103-140 | a falsy name, price or category (so a numeric price 0) is refused with "Please provide name, price, and category"; otherwise success iff the schema accepts the fields with a falsy stock replaced by 100; the new product is appended with the trimmed name, the price, the category, the trimmed description when one is given, that stock, the default image when none is given, and available |
| ProductRoutes.CreateKeepsStoreOk | ecommerce-sports/server/routes/productRoutes.js:115-122 | creating keeps ids distinct and every product valid |
| ProductRoutes.GetProduct | ecommerce-sports/server/routes/productRoutes.js:64-73 | not-found with "Product not found" iff no product has the id; otherwise the product with that id |
| ProductRoutes.UpdateProduct | ecommerce-sports/server/routes/productRoutes.js:155-188 | a field failing validation gives "Validation error"; an absent id gives not-found; otherwise only that product changes, in place: it becomes the stored product with the update's fields applied, stamped with `now` |
| ProductRoutes.UpdateKeepsStoreOk | ecommerce-sports/server/routes/productRoutes.js:157-164 | an update of an existing id whose supplied fields pass validation succeeds, and keeps ids distinct and every product valid |
| ProductRoutes.DeleteProduct | ecommerce-sports/server/routes/productRoutes.js:203-212 | not-found iff absent; otherwise exactly the products with that id are removed and the rest keep their order |
| ProductRoutes.DeleteKeepsStoreOk | ecommerce-sports/server/routes/productRoutes.js:205 | deleting keeps ids distinct and every product valid |
| ProductRoutes.CategoryList | ecommerce-sports/server/routes/productRoutes.js:234-240 | every product's category is listed and only those are; in a valid catalog every listed category is one of the four the schema admits |
| Cart.AddLine | ecommerce-sports/server/routes/cartRoutes.js:62-77 | an existing line for the product grows by the amount and nothing else changes; otherwise a new line is appended at the end; at most one line per product is preserved and the key set gains exactly the product |
| Cart.AddTwiceMerges | ecommerce-sports/server/routes/cartRoutes.js:62-77 | adding the same product twice to an empty cart gives one line holding both amounts |
| Cart.SetLineQuantity | ecommerce-sports/server/routes/cartRoutes.js:122-126 | at or below zero the product's line is removed, leaving the others in order; above zero only its quantity changes; uniqueness is kept |
| Cart.RemoveLine | ecommerce-sports/server/routes/cartRoutes.js:159-170 | exactly the product's line is removed, the others keep their order, and no other product appears or disappears |
| CartRoutes.SessionKey | ecommerce-sports/server/routes/cartRoutes.js:23 | a missing or empty session id means "default-session"; a non-empty one is used as given |
| CartRoutes.GetOrCreate | ecommerce-sports/server/routes/cartRoutes.js:7-13 | an existing cart is returned unchanged; an unknown session gets an empty cart, stored; other sessions are untouched |
| CartRoutes.GetOrCreateIdempotent | ecommerce-sports/server/routes/cartRoutes.js:7-13 | getting or creating twice is the same as once |
| CartRoutes.GetCart | ecommerce-sports/server/routes/cartRoutes.js:20-31 | always succeeds with the session's lines: the stored ones, or empty for a new session |
| CartRoutes.AddItem | ecommerce-sports/server/routes/cartRoutes.js:47-77 | fails with "Product id, name, and price are required", touching nothing, iff id, name or price is falsy; otherwise the quantity, or 1 when it is falsy, is added to the session's cart only |
| CartRoutes.ZeroPriceRefused | ecommerce-sports/server/routes/cartRoutes.js:52-57 | a price of 0 is refused and no cart is created |
| CartRoutes.ZeroQuantityAddsOne | ecommerce-sports/server/routes/cartRoutes.js:67 | quantity 0 counts as 1: an existing line grows by one |
| CartRoutes.UpdateItem | ecommerce-sports/server/routes/cartRoutes.js:103-126 | not-found iff the session's cart has no line for the product, and only the empty-cart creation is kept; otherwise the session's cart becomes the set-quantity result |
| CartRoutes.RemoveItem | ecommerce-sports/server/routes/cartRoutes.js:152-170 | not-found iff absent; otherwise one line fewer, and with unique lines exactly the product's line is removed with the rest in order |
| CartRoutes.ClearCart | ecommerce-sports/server/routes/cartRoutes.js:195-201 | the session's cart becomes empty and no other session changes |
| CartRoutes.ClearIdempotent | ecommerce-sports/server/routes/cartRoutes.js:197-200 | clearing twice is clearing once |
| CartRoutes.HandlersTouchOneSession | ecommerce-sports/server/routes/cartRoutes.js:7-13 | every handler leaves the carts of other sessions as they were |
| CartRoutes.HandlersKeepSessionsOk | ecommerce-sports/server/routes/cartRoutes.js:62-126 | every handler keeps at most one line per product in every session's cart |
| OrderModel.ParseStatus | ecommerce-sports/server/models/Order.js:32-36 | a status string is accepted iff it is one of the five enum values, and it reads back to the status of that name |
| OrderModel.StatusRoundTrip | ecommerce-sports/server/models/Order.js:32-36 | naming a status and parsing the name gives the status back |
| OrderModel.NewOrder | ecommerce-sports/server/models/Order.js:14-50 | creation fails iff `user` or `totalAmount` is missing; defaults are Pending, "Cash on Delivery" and unpaid, with no payment or delivery stamp |
| OrderRoutes.PlaceOrder | ecommerce-sports/server/routes/orderRoutes.js:10-41 | missing or empty items give "No items in order" and nothing is stored; otherwise the order is appended, Pending, owned by the caller, with the items and total exactly as sent, and the payment method, or "Cash on Delivery" when it is falsy; without a total the schema's failure is a server error |
| OrderRoutes.PlaceKeepsStoreOk | ecommerce-sports/server/routes/orderRoutes.js:21-28 | placing keeps ids distinct and payment stamps consistent |
| OrderRoutes.OwnedBy | ecommerce-sports/server/routes/orderRoutes.js:49 | exactly the orders whose owner is the user, each as many times as it is stored |
| OrderRoutes.MyOrders | ecommerce-sports/server/routes/orderRoutes.js:47-56 | exactly the caller's orders, sorted by creation time descending, with count equal to their number |
| OrderRoutes.AllOrders | ecommerce-sports/server/routes/orderRoutes.js:69-79 | every order once, newest first, with the count |
| OrderRoutes.NewestFirst | ecommerce-sports/server/routes/orderRoutes.js:49-50 | the first listed order is at least as new as every other listed order |
| OrderRoutes.GetOrder | ecommerce-sports/server/routes/orderRoutes.js:92-115 | not-found when absent; forbidden exactly when the caller is neither the owner nor an admin; otherwise the order with that id |
| OrderRoutes.ReadAccess | ecommerce-sports/server/routes/orderRoutes.js:104-110 | the owner and an admin can read an existing order; anyone else gets 403 |
| OrderRoutes.SetStatus | ecommerce-sports/server/routes/orderRoutes.js:128-157 | an unknown status string is refused before any lookup; then not-found; otherwise only that order changes, its status overwritten from any prior status; Delivered sets isPaid and stamps paidAt and deliveredAt with `now`; any other status leaves the payment fields alone; `updatedAt` becomes `now` unless a non-Delivered status is set to the value it already has, which saves nothing and keeps the old stamp |
| OrderRoutes.SameStatusIsNoChange | ecommerce-sports/server/routes/orderRoutes.js:149-157 | setting a non-Delivered order to its current status leaves the collection and the order exactly as they were |
| OrderRoutes.InvalidStatusBeforeLookup | ecommerce-sports/server/routes/orderRoutes.js:131-138 | an invalid status is refused with 400 even when the order does not exist |
| OrderRoutes.AnyTransitionAccepted | ecommerce-sports/server/routes/orderRoutes.js:140-149 | every existing order can be moved to every one of the five statuses |
| OrderRoutes.RegressionKeepsPayment | ecommerce-sports/server/routes/orderRoutes.js:149-155 | moving a delivered order back to Pending keeps its payment flag and delivery stamp |
| OrderRoutes.SetStatusKeepsStoreOk | ecommerce-sports/server/routes/orderRoutes.js:149-157 | a status update keeps ids distinct and payment stamps consistent |
| OrderRoutes.DeleteOrder | ecommerce-sports/server/routes/orderRoutes.js:179-190 | not-found iff absent; otherwise exactly that order is removed and the others keep their order |
| OrderRoutes.DeleteRemovesExactlyOne | ecommerce-sports/server/routes/orderRoutes.js:181-190 | after a delete the id is gone and every other id is present exactly as before |
| OrderRoutes.DeleteKeepsStoreOk | ecommerce-sports/server/routes/orderRoutes.js:190 | deleting keeps ids distinct and payment stamps consistent |
| LegacyServer.ListProducts | ecommerce-sports/server/server.js:44-52 | every product, as a permutation, newest first |
| LegacyServer.GetProduct | ecommerce-sports/server/server.js:54-65 | not-found iff no product has the id; otherwise that product |
| LegacyServer.CreateProduct | ecommerce-sports/server/server.js:67-81 | no route-level check: success iff the schema accepts name, price, category and description; a failure is a server error; the product stores the trimmed name, the price, the category and the trimmed description when one is given; stock and availability always take their defaults |
| LegacyServer.ZeroPriceOnlyLegacy | ecommerce-sports/server/server.js:67-81 | a numeric price of 0 is accepted here but refused by the product API |
| LegacyServer.StockOnlyApi | ecommerce-sports/server/server.js:70-76 | a supplied stock is ignored here but stored by the product API |
| LegacyServer.DeleteProduct | ecommerce-sports/server/server.js:83-94 | not-found iff absent; otherwise exactly the products with that id are removed |
| LegacyServer.GetAgreesWithSession | ecommerce-sports/server/server.js:97-105 | the legacy read answers with the same lines the session route reads for that cart |
| LegacyServer.AddThenGet | ecommerce-sports/server/server.js:107-134 | after an add with an id, the cart read back holds a line for the product whose quantity is the old one (0 when there was none) plus the quantity, or 1 when it is falsy |
| LegacyServer.AddItem | ecommerce-sports/server/server.js:107-134 | fails (500) exactly when the id is missing; otherwise the quantity, or 1 when it is falsy, is added by the same increment-or-append rule, keeping one line per product |
| LegacyServer.UpdateItem | ecommerce-sports/server/server.js:136-158 | not-found iff absent; at or below zero the line is deleted, otherwise its quantity is overwritten; uniqueness is kept |
| LegacyServer.RemoveItem | ecommerce-sports/server/server.js:160-170 | never fails; an absent product leaves the cart unchanged; a present one loses exactly its line |
| LegacyServer.ClearAgreesWithSession | ecommerce-sports/server/server.js:172-180 | the legacy clear leaves the same empty cart as the session clear, and reading it back gives what the session route stores |
| LegacyServer.AddAfterClear | ecommerce-sports/server/server.js:107-134 | adding to a cleared cart gives exactly one line with the request's fields and the quantity, or 1 when it is falsy |
| LegacyServer.AddAgreesWithSession | ecommerce-sports/server/server.js:113-127 | for a request the session route accepts, the legacy add makes the same lines as the session add |
| LegacyServer.AddAcceptsUnchecked | ecommerce-sports/server/server.js:107-127 | a missing name and a price of 0 are accepted here and refused by the session route |
| LegacyServer.UpdateAgreesWithSession | ecommerce-sports/server/server.js:141-151 | both update routes give the same outcome on the same cart |
| LegacyServer.RemoveAbsentDiffers | ecommerce-sports/server/server.js:163-166 | removing an absent product succeeds unchanged here, and is not-found on the session route |
| CartPage.SumDefined | ecommerce-sports/src/components/CartPage.jsx:69 | the subtotal is a number exactly when every line has a price |
| CartPage.SumNonNegative | ecommerce-sports/src/components/CartPage.jsx:69 | with non-negative prices and quantities the subtotal is non-negative |
| CartPage.Subtotal | ecommerce-sports/src/components/CartPage.jsx:69 | the left fold computes the sum of price × quantity over the lines; it is 0 for an empty cart and a number iff every line is priced |
| CartPage.Shipping | ecommerce-sports/src/components/CartPage.jsx:70 | shipping is 0 exactly when the subtotal is a number strictly above 100, and 9.99 otherwise |
| CartPage.Summarize | ecommerce-sports/src/components/CartPage.jsx:69-72 | the subtotal is the line sum, tax is 8% of it, and the total is subtotal + shipping + tax; the total is a number iff every line is priced |
| CartPage.TotalFormula | ecommerce-sports/src/components/CartPage.jsx:70-72 | the total is 1.08 × subtotal, plus 9.99 unless the subtotal is above 100; it is never below a non-negative subtotal |
| CartPage.ThresholdIsStrict | ecommerce-sports/src/components/CartPage.jsx:70 | a subtotal of exactly 100 pays shipping (total 117.99), and costs more than a subtotal of 101 (total 109.08) |
| CartPage.RequestedQuantity | ecommerce-sports/src/components/CartPage.jsx:29-34 | nothing is requested iff the product has no line on the page; otherwise the quantity of the first line for the product plus the change |
| CartPage.UpdateQuantity | ecommerce-sports/src/components/CartPage.jsx:29-52 | an absent product changes nothing; otherwise the server cart gets the set-quantity result and the page shows it |
| CartPage.DecrementLastUnitRemovesLine | ecommerce-sports/src/components/CartPage.jsx:29-48 | pressing minus on a one-unit line removes that line from the server's cart and from the page |
| CartPage.RemoveFromPage | ecommerce-sports/src/components/CartPage.jsx:54-67 | the page shows the server's cart after the legacy delete; with unique lines the product's line is gone |
| CartPage.OrderItemsOf | ecommerce-sports/src/components/CartPage.jsx:86-92 | one order item per line, in cart order, copying product id, name, price, quantity and image |
| CartPage.SnapshotKeepsSubtotal | ecommerce-sports/src/components/CartPage.jsx:86-92 | the order items give back the cart's subtotal |
| CartPage.Checkout | ecommerce-sports/src/components/CartPage.jsx:74-135 | an empty cart is refused with "No items in order"; an unpriced line makes the total NaN, which the order schema refuses; otherwise one Pending order is appended with the snapshot, the page's total, the fixed address and "Cash on Delivery", and the cart is cleared |
| CartPage.CheckoutExample | ecommerce-sports/src/components/CartPage.jsx:84-135 | two lines of 50 × 2 and 30 × 1 check out into one Pending order totalling 140.4, and it is the caller's only order |

## Left out

- Express and Mongoose plumbing is not modelled: routing, the JSON envelopes, `populate`, the 500 catch branches of handlers that do not throw on their modelled input, and the `cart.totalAmount` / `cart.totalItems` fields. `Cart.js` gives no definition for those totals.
- Malformed ObjectIds are not modelled: the 400 "Invalid product ID format" branch and the cast errors of order lookups. Ids are plain strings, and numeric product ids are the strings `toString` gives.
- Authentication middleware is not modelled. It lives in a file that is not part of this model. The caller is an `Identity` input, and the admin-only routes are taken as already admitted.
- The case-insensitive regular-expression name search is left to the engine. It is a total parameter `nameMatch` of the listing functions, so the server error for an invalid pattern such as `(` is not modelled.
- Floating point is not modelled: `parseFloat`, `Number(...)`, `toFixed` and IEEE rounding. Money is `real` and the arithmetic is exact. `NaN` appears only as the absent subtotal of a cart with an unpriced line.
- Query strings are not parsed. Price bounds arrive already read as numbers.
- Time is a `now` parameter. Mongoose's `createdAt`/`updatedAt` stamps use it.
- Connection and startup code, logging and the health route are not modelled.
- Checkout's two network steps are not modelled as separate steps, so their non-atomicity is out of scope. The order write and the cart clear are one step.
- React rendering, the login redirect, `localStorage` and `sessionStorage` are not modelled. That includes the copy of orders kept for the orders page.
- CartPage.RequestedQuantity: lines are keyed by `productId` only. The `product` and `id` fallbacks never apply to lines of the global cart, which always carry `productId`.
- CartPage.OrderItemsOf: the product id is copied as a string. The cast to an ObjectId reference on save, which fails for non-ObjectId strings, is not modelled.
- CartPage.Checkout: for the same reason, a cart line whose product id is not 24 hex digits makes the real order save fail with a server error, while the model places the order.
- OrderRoutes.PlaceOrder: likewise, an item whose product id is not 24 hex digits makes the real save fail with a server error, while the model appends the order.
- CartRoutes.AddItem: `id`, `price` and `quantity` are typed values, so two JavaScript cases are not modelled. A numeric id 0 is falsy and refused; the model's string id is refused only when missing or empty. A fractional or non-numeric quantity is added as given; the model's quantity is an integer.
- LegacyServer.AddItem: the quantity is an integer for the same reason. A fractional quantity, which the route adds as given, is not modelled.
- CartRoutes.UpdateItem: `quantity` is always a number. A missing quantity, for which `undefined <= 0` is false, is not modelled.
- LegacyServer.UpdateItem: likewise, a missing quantity makes `undefined <= 0` false, so the route overwrites the line's quantity with `undefined`. This is not modelled.
- Catalog.Create: `stock` is an integer. The schema's stock is any Number of at least 0, so a fractional stock such as 2.5 is accepted and stored; this is not modelled. The same holds for ProductRoutes.CreateProduct and ProductRoutes.UpdateProduct.
- ProductRoutes.CreateProduct: `price` and `stock` arrive as numbers. A urlencoded form body carries strings, and the string "0" is truthy. A price of "0" therefore passes the route's falsy check and is stored as 0 after `parseFloat`. A stock of "0" survives `stock || 100` and is stored as 0. The contract's statements that a price of 0 is refused and a stock of 0 becomes 100 hold for JSON numbers only.
- ProductRoutes.UpdateProduct: update validators are modelled as checking every supplied field against its schema constraint. Fields outside the schema, and casting of non-numeric strings, are not modelled.
- OrderRoutes.SetStatus: one `now` stamps `updatedAt`, `paidAt` and `deliveredAt`. The route calls the clock separately for `paidAt` and `deliveredAt`, and Mongoose stamps `updatedAt` on a save that modifies the document, so the three can differ by a few milliseconds.
- Ordering.Sort: ties between equal keys are placed by the insertion sort. The store's tie order is unspecified, so the contract states only a sorted permutation.

=== FILE: cart.dfy ===
/** Cart lines and the edits both cart route sets make to a sequence of them
    (server/routes/cartRoutes.js on a session's cart, server/server.js on the
    one global cart). Lines are keyed by the product id string. */
module Cart {
  import opened Outcome
  import Keyed

  /** One cart line. Only the product id and the quantity are always set; the
      legacy routes store whatever the request carried. */
  datatype CartLine = CartLine(
    productId: string,
    name: Option<string>,
    price: Option<real>,
    category: Option<string>,
    image: Option<string>,
    quantity: int)

  /** The product fields of an add request, copied into a new line. */
  datatype Item = Item(
    productId: string,
    name: Option<string>,
    price: Option<real>,
    category: Option<string>,
    image: Option<string>)

  function LineKey(l: CartLine): string { l.productId }

  /** At most one line per product id. */
  predicate Unique(lines: seq<CartLine>)
  {
    Keyed.Distinct(lines, LineKey)
  }

  predicate Contains(lines: seq<CartLine>, productId: string)
  {
    Keyed.Has(lines, LineKey, productId)
  }

  function Find(lines: seq<CartLine>, productId: string): int
  {
    Keyed.IndexOf(lines, LineKey, productId)
  }

  /** Add `amount` of an item: an existing line for the product grows by
      `amount` and nothing else changes; otherwise a new line goes at the end. */
  function AddLine(lines: seq<CartLine>, item: Item, amount: int): (r: seq<CartLine>)
    ensures Unique(lines) ==> Unique(r)
    ensures Contains(r, item.productId)
    ensures forall k :: Contains(r, k) <==> Contains(lines, k) || k == item.productId
    ensures Contains(lines, item.productId) ==>
      && |r| == |lines|
      && r[Find(lines, item.productId)].quantity == lines[Find(lines, item.productId)].quantity + amount
      && r[Find(lines, item.productId)] == lines[Find(lines, item.productId)].(quantity := r[Find(lines, item.productId)].quantity)
      && forall j :: 0 <= j < |lines| && j != Find(lines, item.productId) ==> r[j] == lines[j]
    ensures !Contains(lines, item.productId) ==>
      && |r| == |lines| + 1 && r[..|lines|] == lines
      && r[|lines|] == CartLine(item.productId, item.name, item.price, item.category, item.image, amount)
  {
    var i := Find(lines, item.productId);
    if i != -1 then
      var r := lines[i := lines[i].(quantity := lines[i].quantity + amount)];
      SameKeys(lines, i, r[i]);
      Keyed.ReplaceDistinct(lines, LineKey, i, r[i]);
      r
    else
      var line := CartLine(item.productId, item.name, item.price, item.category, item.image, amount);
      var r := lines + [line];
      assert r[|lines|] == line;
      AppendedKeys(lines, line);
      Keyed.AppendDistinct(lines, LineKey, line);
      r
  }

  /** Overwriting a line by one with the same key keeps the set of keys. */
  lemma SameKeys(lines: seq<CartLine>, i: int, l: CartLine)
    requires 0 <= i < |lines| && l.productId == lines[i].productId
    ensures forall k :: Contains(lines[i := l], k) <==> Contains(lines, k)
  {
    var r := lines[i := l];
    forall k
      ensures Contains(r, k) <==> Contains(lines, k)
    {
      if Contains(r, k) {
        var j :| 0 <= j < |r| && LineKey(r[j]) == k;
        assert LineKey(lines[j]) == k;
      }
      if Contains(lines, k) {
        var j :| 0 <= j < |lines| && LineKey(lines[j]) == k;
        assert LineKey(r[j]) == k;
      }
    }
  }

  lemma AppendedKeys(lines: seq<CartLine>, l: CartLine)
    ensures forall k :: Contains(lines + [l], k) <==> Contains(lines, k) || k == l.productId
  {
    var r := lines + [l];
    forall k
      ensures Contains(r, k) <==> Contains(lines, k) || k == l.productId
    {
      if Contains(lines, k) {
        var j :| 0 <= j < |lines| && LineKey(lines[j]) == k;
        assert LineKey(r[j]) == k;
      }
      assert LineKey(r[|lines|]) == l.productId;
    }
  }

  /** Set the quantity of a present line: at or below zero the line is
      spliced out, otherwise its quantity is overwritten. Other lines are
      unchanged and keep their order. */
  function SetLineQuantity(lines: seq<CartLine>, productId: string, quantity: int): (r: seq<CartLine>)
    requires Contains(lines, productId)
    ensures Unique(lines) ==> Unique(r)
    ensures quantity <= 0 && Unique(lines) ==> r == Keyed.Without(lines, LineKey, productId)
    ensures quantity <= 0 ==> |r| == |lines| - 1
    ensures quantity > 0 ==>
      && |r| == |lines|
      && r[Find(lines, productId)] == lines[Find(lines, productId)].(quantity := quantity)
      && forall j :: 0 <= j < |lines| && j != Find(lines, productId) ==> r[j] == lines[j]
  {
    var i := Find(lines, productId);
    if quantity <= 0 then
      RemoveLine(lines, productId)
    else
      var l := lines[i].(quantity := quantity);
      Keyed.ReplaceDistinct(lines, LineKey, i, l);
      lines[i := l]
  }

  /** Splice out the first line for a present product: with unique lines this
      removes exactly that product and keeps the rest in order. */
  function RemoveLine(lines: seq<CartLine>, productId: string): (r: seq<CartLine>)
    requires Contains(lines, productId)
    ensures |r| == |lines| - 1
    ensures Unique(lines) ==> Unique(r)
    ensures Unique(lines) ==> r == Keyed.Without(lines, LineKey, productId)
    ensures Unique(lines) ==> !Contains(r, productId)
    ensures forall k :: k != productId ==> (Contains(r, k) <==> Contains(lines, k))
  {
    var i := Find(lines, productId);
    RemoveUnique(lines, productId);
    RemoveAtKeys(lines, i);
    Keyed.RemoveAt(lines, i)
  }

  lemma RemoveUnique(lines: seq<CartLine>, productId: string)
    requires Contains(lines, productId)
    ensures Unique(lines) ==> Unique(Keyed.RemoveAt(lines, Find(lines, productId)))
    ensures Unique(lines) ==> Keyed.RemoveAt(lines, Find(lines, productId)) == Keyed.Without(lines, LineKey, productId)
    ensures Unique(lines) ==> !Contains(Keyed.Without(lines, LineKey, productId), productId)
  {
    Keyed.RemoveFirstMatch(lines, LineKey, productId);
    if Unique(lines) {
      Keyed.RemoveAtDistinct(lines, LineKey, Find(lines, productId));
      Keyed.WithoutKeys(lines, LineKey, productId, productId);
    }
  }

  /** Dropping position `i` removes no other key. */
  lemma RemoveAtKeys(lines: seq<CartLine>, i: int)
    requires 0 <= i < |lines|
    ensures forall k :: k != lines[i].productId ==> (Contains(Keyed.RemoveAt(lines, i), k) <==> Contains(lines, k))
  {
    var r := Keyed.RemoveAt(lines, i);
    forall k | k != lines[i].productId
      ensures Contains(r, k) <==> Contains(lines, k)
    {
      if Contains(r, k) {
        var j :| 0 <= j < |r| && LineKey(r[j]) == k;
        assert r[j] == lines[if j < i then j else j + 1];
      }
      if Contains(lines, k) {
        var j :| 0 <= j < |lines| && LineKey(lines[j]) == k;
        assert j != i;
        assert lines[j] == r[if j < i then j else j - 1];
      }
    }
  }

  /** Adding the same product twice makes one line holding both amounts. */
  lemma AddTwiceMerges(item: Item, a: int, b: int)
    ensures AddLine(AddLine([], item, a), item, b)
      == [CartLine(item.productId, item.name, item.price, item.category, item.image, a + b)]
  {
    var once := AddLine([], item, a);
    assert Find(once, item.productId) == 0;
  }
}

=== FILE: cart_page.dfy ===
/** The pricing and checkout logic of the cart page
    (src/components/CartPage.jsx). The page shows the global cart of the
    unprefixed routes; a line with no price makes the JavaScript arithmetic
    NaN, modelled as an absent amount. */
module CartPage {
  import opened Outcome
  import opened Cart
  import opened OrderModel
  import Keyed
  import LegacyServer
  import OrderRoutes

  const FreeShippingAbove: real := 100.0
  const ShippingFee: real := 9.99
  const TaxRate: real := 0.08

  /** Sum of two amounts; NaN (absent) absorbs. */
  function Plus(a: Option<real>, b: Option<real>): Option<real>
  {
    if a.Some? && b.Some? then Some(a.value + b.value) else None
  }

  /** `price * quantity`; NaN when the price is missing. */
  function Amount(price: Option<real>, quantity: int): Option<real>
  {
    if price.Some? then Some(price.value * quantity as real) else None
  }

  function LineAmount(l: CartLine): Option<real>
  {
    Amount(l.price, l.quantity)
  }

  /** Reference meaning of the subtotal: the sum of price times quantity over
      the lines, summed from the front. */
  function Sum(cart: seq<CartLine>): Option<real>
    decreases |cart|
  {
    if |cart| == 0 then Some(0.0) else Plus(LineAmount(cart[0]), Sum(cart[1..]))
  }

  predicate AllPriced(cart: seq<CartLine>)
  {
    forall i :: 0 <= i < |cart| ==> cart[i].price.Some?
  }

  /** The sum of a concatenation is the sum of the sums. */
  lemma {:induction false} SumAppend(a: seq<CartLine>, b: seq<CartLine>)
    ensures Sum(a + b) == Plus(Sum(a), Sum(b))
    decreases |a|
  {
    if |a| == 0 {
      assert a + b == b;
    } else {
      assert (a + b)[0] == a[0];
      assert (a + b)[1..] == a[1..] + b;
      SumAppend(a[1..], b);
    }
  }

  /** The subtotal is a number exactly when every line has a price. */
  lemma {:induction false} SumDefined(cart: seq<CartLine>)
    ensures Sum(cart).Some? <==> AllPriced(cart)
    decreases |cart|
  {
    if |cart| > 0 {
      SumDefined(cart[1..]);
      assert forall i :: 0 < i < |cart| ==> cart[i] == cart[1..][i - 1];
    }
  }

  /** With non-negative prices and quantities the subtotal is non-negative. */
  lemma {:induction false} SumNonNegative(cart: seq<CartLine>)
    requires forall i :: 0 <= i < |cart| ==> cart[i].price.Some? && cart[i].price.value >= 0.0 && cart[i].quantity >= 0
    ensures Sum(cart).Some? && Sum(cart).value >= 0.0
    decreases |cart|
  {
    if |cart| > 0 {
      assert forall i :: 0 < i < |cart| ==> cart[i] == cart[1..][i - 1];
      SumNonNegative(cart[1..]);
    }
  }

  /** `cart.reduce((sum, item) => sum + item.price * item.quantity, 0)`:
      a left fold, equal to the reference sum. */
  method Subtotal(cart: seq<CartLine>) returns (s: Option<real>)
    ensures s == Sum(cart)
    ensures cart == [] ==> s == Some(0.0)
    ensures s.Some? <==> AllPriced(cart)
  {
    s := Some(0.0);
    var i := 0;
    while i < |cart|
      invariant 0 <= i <= |cart|
      invariant s == Sum(cart[..i])
    {
      SumAppend(cart[..i], [cart[i]]);
      assert cart[..i + 1] == cart[..i] + [cart[i]];
      s := Plus(s, LineAmount(cart[i]));
      i := i + 1;
    }
    assert cart[..i] == cart;
    SumDefined(cart);
  }

  /** Free shipping strictly above 100; NaN is not above 100. */
  function Shipping(subtotal: Option<real>): (r: real)
    ensures r == 0.0 <==> subtotal.Some? && subtotal.value > FreeShippingAbove
    ensures r == 0.0 || r == ShippingFee
  {
    if subtotal.Some? && subtotal.value > FreeShippingAbove then 0.0 else ShippingFee
  }

  datatype Summary = Summary(subtotal: Option<real>, shipping: real, tax: Option<real>, total: Option<real>)

  /** The order summary the page shows and sends as the order total. */
  function Summarize(cart: seq<CartLine>): (r: Summary)
    ensures r.subtotal == Sum(cart)
    ensures r.total.Some? <==> AllPriced(cart)
    ensures r.shipping == Shipping(r.subtotal)
    ensures r.total.Some? ==>
      && r.subtotal.Some? && r.tax.Some?
      && r.tax.value == r.subtotal.value * TaxRate
      && r.total.value == r.subtotal.value + r.shipping + r.tax.value
  {
    var subtotal := Sum(cart);
    var shipping := Shipping(subtotal);
    var tax := if subtotal.Some? then Some(subtotal.value * TaxRate) else None;
    SumDefined(cart);
    Summary(subtotal, shipping, tax, Plus(Plus(subtotal, Some(shipping)), tax))
  }

  /** The total is 1.08 times the subtotal, plus 9.99 unless the subtotal is
      above 100; so with non-negative amounts it is never below the subtotal. */
  lemma TotalFormula(cart: seq<CartLine>)
    requires AllPriced(cart)
    ensures var r := Summarize(cart);
      r.total.value == r.subtotal.value * (1.0 + TaxRate)
        + (if r.subtotal.value > FreeShippingAbove then 0.0 else ShippingFee)
    ensures Sum(cart).value >= 0.0 ==> Summarize(cart).total.value >= Sum(cart).value
  {
  }

  /** A subtotal of exactly 100 still pays shipping, and its total exceeds
      the total of a slightly larger cart that ships free. */
  lemma ThresholdIsStrict(a: seq<CartLine>, b: seq<CartLine>)
    requires Sum(a) == Some(100.0) && Sum(b) == Some(101.0)
    ensures Summarize(a).shipping == ShippingFee && Summarize(b).shipping == 0.0
    ensures Summarize(a).total == Some(117.99) && Summarize(b).total == Some(109.08)
  {
    SumDefined(a);
    SumDefined(b);
  }

  /** `updateQuantity`: nothing when the product has no line on the page;
      otherwise the quantity sent is the quantity of the first line for the
      product plus the change. */
  function RequestedQuantity(shown: seq<CartLine>, productId: string, change: int): (r: Option<int>)
    ensures r.None? <==> !Contains(shown, productId)
    ensures r.Some? ==>
      exists i :: 0 <= i < |shown| && shown[i].productId == productId
        && (forall j :: 0 <= j < i ==> shown[j].productId != productId)
        && r.value == shown[i].quantity + change
  {
    var i := Find(shown, productId);
    if i == -1 then None else Some(shown[i].quantity + change)
  }

  /** The page's quantity buttons against the global cart: the server cart
      and the lines shown afterwards. The page takes the server's cart when
      the update succeeds and keeps what it showed otherwise. */
  function UpdateQuantity(server: seq<CartLine>, shown: seq<CartLine>, productId: string, change: int): (r: (seq<CartLine>, seq<CartLine>))
    ensures !Contains(shown, productId) ==> r == (server, shown)
    ensures Contains(shown, productId) && !Contains(server, productId) ==> r == (server, shown)
    ensures Contains(shown, productId) && Contains(server, productId) ==>
      r.0 == r.1 && r.0 == SetLineQuantity(server, productId, RequestedQuantity(shown, productId, change).value)
  {
    match RequestedQuantity(shown, productId, change)
    case None => (server, shown)
    case Some(q) =>
      match LegacyServer.UpdateItem(server, productId, q)
      case Err(_) => (server, shown)
      case Ok(c) => (c, c)
  }

  /** Pressing minus on a line holding one unit removes the line from the
      server's cart, and the page then shows the server's cart. */
  lemma DecrementLastUnitRemovesLine(cart: seq<CartLine>, productId: string)
    requires Unique(cart) && Contains(cart, productId)
    requires cart[Find(cart, productId)].quantity == 1
    ensures var r := UpdateQuantity(cart, cart, productId, -1);
      && r.0 == r.1
      && r.0 == Keyed.Without(cart, LineKey, productId)
      && !Contains(r.0, productId)
  {
    RemoveUnique(cart, productId);
  }

  /** The page's remove button: the legacy delete, after which the page
      shows the server's cart. An absent product leaves both as they were. */
  function RemoveFromPage(server: seq<CartLine>, productId: string): (r: (seq<CartLine>, seq<CartLine>))
    ensures r.0 == r.1
    ensures !Contains(server, productId) ==> r.0 == server
    ensures Unique(server) ==> r.0 == Keyed.Without(server, LineKey, productId) && !Contains(r.0, productId)
  {
    var after := LegacyServer.RemoveItem(server, productId);
    if Contains(server, productId) then
      RemoveUnique(server, productId);
      (after, after)
    else (after, after)
  }

  /** The order item made from one cart line at checkout. */
  function Snapshot(l: CartLine): OrderItem
  {
    OrderItem(Some(l.productId), l.name, l.price, l.quantity, l.image)
  }

  /** The order items built at checkout: one per line, in cart order, each
      copying the line's product id, name, price, quantity and image. */
  function OrderItemsOf(cart: seq<CartLine>): (r: seq<OrderItem>)
    ensures |r| == |cart|
    ensures forall i :: 0 <= i < |cart| ==>
      && r[i].productId == Some(cart[i].productId) && r[i].name == cart[i].name
      && r[i].price == cart[i].price && r[i].quantity == cart[i].quantity && r[i].image == cart[i].image
  {
    seq(|cart|, i requires 0 <= i < |cart| => Snapshot(cart[i]))
  }

  function ItemAmount(it: OrderItem): Option<real>
  {
    Amount(it.price, it.quantity)
  }

  /** Price times quantity summed over order items. */
  function ItemsSum(items: seq<OrderItem>): Option<real>
    decreases |items|
  {
    if |items| == 0 then Some(0.0) else Plus(ItemAmount(items[0]), ItemsSum(items[1..]))
  }

  /** The snapshot carries everything needed to recompute the subtotal. */
  lemma {:induction false} SnapshotKeepsSubtotal(cart: seq<CartLine>)
    ensures ItemsSum(OrderItemsOf(cart)) == Sum(cart)
    decreases |cart|
  {
    var items := OrderItemsOf(cart);
    if |cart| > 0 {
      assert items[0] == Snapshot(cart[0]);
      assert items[1..] == OrderItemsOf(cart[1..]);
      SnapshotKeepsSubtotal(cart[1..]);
      assert ItemAmount(items[0]) == LineAmount(cart[0]);
    }
  }

  /** The address the page sends with every order. */
  const CheckoutAddress := ShippingAddress("Customer", "Default Address", "City", "000000", "0000000000")

  /** The state after checkout: the order collection, the global cart, and
      the placed order or the error. */
  datatype CheckoutResult = CheckoutResult(orders: OrderRoutes.Store, cart: seq<CartLine>, placed: Result<Order>)

  /** `handleCheckout` for a logged-in caller: post the snapshot with the
      page's total, then clear the cart when the order was placed. A NaN
      total reaches the server as null, which the schema refuses. */
  function Checkout(orders: OrderRoutes.Store, cart: seq<CartLine>, caller: OrderRoutes.Identity, newId: string, now: int): (r: CheckoutResult)
    requires !Keyed.Has(orders, OrderRoutes.OrderId, newId)
    ensures cart == [] ==> r == CheckoutResult(orders, cart, Err(Invalid("No items in order")))
    ensures cart != [] && !AllPriced(cart) ==> r == CheckoutResult(orders, cart, Err(ServerError("Error creating order")))
    ensures r.placed.Ok? <==> cart != [] && AllPriced(cart)
    ensures r.placed.Ok? ==>
      var o := r.placed.value;
      && r.orders == orders + [o] && r.cart == []
      && o.id == newId && o.user == caller.userId && o.status == Pending && !o.isPaid
      && o.items == OrderItemsOf(cart) && Some(o.totalAmount) == Summarize(cart).total
      && o.paymentMethod == DefaultPaymentMethod && o.shippingAddress == Some(CheckoutAddress)
  {
    var req := OrderRoutes.PlaceRequest(
      Some(OrderItemsOf(cart)), Summarize(cart).total, Some(CheckoutAddress), Some(DefaultPaymentMethod));
    match OrderRoutes.PlaceOrder(orders, caller, req, newId, now)
    case Err(e) => CheckoutResult(orders, cart, Err(e))
    case Ok((s1, o)) => CheckoutResult(s1, LegacyServer.ClearCart(cart), Ok(o))
  }

  /** The worked example: two priced lines, checked out into an empty order
      collection, give one Pending order with both items and the page's
      total, and it is the first of the caller's orders. */
  lemma CheckoutExample(caller: OrderRoutes.Identity, now: int)
    ensures var cart := [CartLine("65a1f0c2e4b0a1b2c3d4e5f6", Some("Shoe"), Some(50.0), None, None, 2),
                         CartLine("65a1f0c2e4b0a1b2c3d4e5f7", Some("Cap"), Some(30.0), None, None, 1)];
      var r := Checkout([], cart, caller, "o1", now);
      && r.placed.Ok? && r.cart == []
      && |r.placed.value.items| == 2 && r.placed.value.status == Pending
      && r.placed.value.totalAmount == 140.4
      && OrderRoutes.MyOrders(r.orders, caller).orders == [r.placed.value]
  {
    var cart := [CartLine("65a1f0c2e4b0a1b2c3d4e5f6", Some("Shoe"), Some(50.0), None, None, 2),
                 CartLine("65a1f0c2e4b0a1b2c3d4e5f7", Some("Cap"), Some(30.0), None, None, 1)];
    assert Sum(cart) == Some(130.0) by {
      assert cart[1..][1..] == [];
    }
    var r := Checkout([], cart, caller, "o1", now);
    var mine := OrderRoutes.MyOrders(r.orders, caller).orders;
    assert r.orders == [r.placed.value];
    assert r.placed.value in mine;
    assert |mine| == 1 by {
      assert multiset(mine) == multiset(OrderRoutes.OwnedBy(r.orders, caller.userId));
      assert OrderRoutes.OwnedBy(r.orders, caller.userId) == [r.placed.value];
    }
  }
}

=== FILE: cart_routes.dfy ===
/** The session cart API (server/routes/cartRoutes.js): one cart per session
    id, held as a map from session id to its lines. Every handler first runs
    `getOrCreateCart`, which stores an empty cart for an unknown session, so a
    reply carries the sessions as they stand afterwards, error or not. */
module CartRoutes {
  import opened Outcome
  import opened Cart
  import Keyed

  type Sessions = map<string, seq<CartLine>>

  const DefaultSession := "default-session"

  /** `req.query.sessionId || 'default-session'`: every request without a
      session id shares one cart. */
  function SessionKey(sessionId: Option<string>): (k: string)
    ensures TextTruthy(sessionId) ==> k == sessionId.value
    ensures !TextTruthy(sessionId) ==> k == DefaultSession
    ensures k != ""
  {
    TextOr(sessionId, DefaultSession)
  }

  /** Every session's cart has at most one line per product. */
  predicate SessionsOk(s: Sessions)
  {
    forall k :: k in s ==> Unique(s[k])
  }

  /** The sessions after the handler, and its outcome: the cart's lines or
      an error response. */
  datatype Reply = Reply(sessions: Sessions, outcome: Result<seq<CartLine>>)

  /** `getOrCreateCart`: the stored cart, or a new empty one stored under the
      key. Other sessions are untouched. */
  function GetOrCreate(s: Sessions, key: string): (r: (Sessions, seq<CartLine>))
    ensures key in r.0 && r.0[key] == r.1
    ensures key in s ==> r.0 == s
    ensures key !in s ==> r.1 == [] && r.0 == s[key := []]
    ensures r.0.Keys == s.Keys + {key}
    ensures forall k :: k in s ==> r.0[k] == s[k]
  {
    if key in s then (s, s[key]) else (s[key := []], [])
  }

  /** Getting or creating a cart twice is the same as once. */
  lemma GetOrCreateIdempotent(s: Sessions, key: string)
    ensures GetOrCreate(GetOrCreate(s, key).0, key) == GetOrCreate(s, key)
  {
  }

  /** `GET /api/cart`. */
  function GetCart(s: Sessions, sessionId: Option<string>): (r: Reply)
    ensures r.outcome.Ok?
    ensures SessionKey(sessionId) in r.sessions
    ensures r.outcome.value == r.sessions[SessionKey(sessionId)]
    ensures SessionKey(sessionId) in s ==> r.sessions == s
    ensures SessionKey(sessionId) !in s ==> r.outcome.value == []
  {
    var (s1, lines) := GetOrCreate(s, SessionKey(sessionId));
    Reply(s1, Ok(lines))
  }

  /** The body of `POST /api/cart`. */
  datatype AddRequest = AddRequest(
    id: Option<string>,
    name: Option<string>,
    price: Option<real>,
    category: Option<string>,
    image: Option<string>,
    quantity: Option<int>,
    sessionId: Option<string>)

  /** The route's falsy check: id, name and price must all be truthy. */
  predicate AddAccepted(req: AddRequest)
  {
    TextTruthy(req.id) && TextTruthy(req.name) && AmountTruthy(req.price)
  }

  function ItemOf(req: AddRequest): Item
    requires req.id.Some?
  {
    Item(req.id.value, req.name, req.price, req.category, req.image)
  }

  /** `POST /api/cart`: a request failing the falsy check is refused before
      any cart is touched; otherwise `quantity || 1` of the item is added. */
  function AddItem(s: Sessions, req: AddRequest): (r: Reply)
    ensures !AddAccepted(req) <==> r.outcome.Err?
    ensures !AddAccepted(req) ==> r == Reply(s, Err(Invalid("Product id, name, and price are required")))
    ensures AddAccepted(req) ==>
      var key := SessionKey(req.sessionId);
      var before := GetOrCreate(s, key).1;
      && r.sessions == s[key := r.outcome.value]
      && r.outcome.value == AddLine(before, ItemOf(req), CountOr(req.quantity, 1))
      && Contains(r.outcome.value, req.id.value)
  {
    if !AddAccepted(req) then Reply(s, Err(Invalid("Product id, name, and price are required")))
    else
      var key := SessionKey(req.sessionId);
      var (s1, lines) := GetOrCreate(s, key);
      var after := AddLine(lines, ItemOf(req), CountOr(req.quantity, 1));
      Reply(s1[key := after], Ok(after))
  }

  /** A price of 0 is falsy, so it is refused even with id and name given. */
  lemma ZeroPriceRefused(s: Sessions, req: AddRequest)
    requires req.price == Some(0.0)
    ensures AddItem(s, req).outcome == Err(Invalid("Product id, name, and price are required"))
    ensures AddItem(s, req).sessions == s
  {
  }

  /** A quantity of 0 is falsy and counts as 1: adding an existing product
      with quantity 0 raises its line by one. */
  lemma ZeroQuantityAddsOne(s: Sessions, req: AddRequest)
    requires AddAccepted(req) && req.quantity == Some(0)
    requires SessionKey(req.sessionId) in s && Contains(s[SessionKey(req.sessionId)], req.id.value)
    ensures var before := s[SessionKey(req.sessionId)];
      var i := Find(before, req.id.value);
      AddItem(s, req).outcome.value[i].quantity == before[i].quantity + 1
  {
  }

  /** `PUT /api/cart/:productId`: not-found when the session's cart has no
      line for the product; at or below zero the line is removed, otherwise
      its quantity is overwritten. */
  function UpdateItem(s: Sessions, sessionId: Option<string>, productId: string, quantity: int): (r: Reply)
    ensures var key := SessionKey(sessionId);
      var before := GetOrCreate(s, key).1;
      && (!Contains(before, productId) <==> r.outcome.Err?)
      && (!Contains(before, productId) ==> r == Reply(GetOrCreate(s, key).0, Err(NotFound("Item not found in cart"))))
      && (Contains(before, productId) ==>
            && r.sessions == s[key := r.outcome.value]
            && r.outcome.value == SetLineQuantity(before, productId, quantity))
  {
    var key := SessionKey(sessionId);
    var (s1, lines) := GetOrCreate(s, key);
    if Find(lines, productId) == -1 then Reply(s1, Err(NotFound("Item not found in cart")))
    else
      var after := SetLineQuantity(lines, productId, quantity);
      Reply(s1[key := after], Ok(after))
  }

  /** `DELETE /api/cart/:productId`: not-found when absent, otherwise exactly
      that product's line is removed and the others keep their order. */
  function RemoveItem(s: Sessions, sessionId: Option<string>, productId: string): (r: Reply)
    ensures var key := SessionKey(sessionId);
      var before := GetOrCreate(s, key).1;
      && (!Contains(before, productId) <==> r.outcome.Err?)
      && (!Contains(before, productId) ==> r == Reply(GetOrCreate(s, key).0, Err(NotFound("Item not found in cart"))))
      && (Contains(before, productId) ==>
            && r.sessions == s[key := r.outcome.value]
            && |r.outcome.value| == |before| - 1
            && (Unique(before) ==> r.outcome.value == Keyed.Without(before, LineKey, productId)))
  {
    var key := SessionKey(sessionId);
    var (s1, lines) := GetOrCreate(s, key);
    if Find(lines, productId) == -1 then Reply(s1, Err(NotFound("Item not found in cart")))
    else
      var after := RemoveLine(lines, productId);
      Reply(s1[key := after], Ok(after))
  }

  /** `DELETE /api/cart`: the session's cart is left empty; other sessions
      are untouched. */
  function ClearCart(s: Sessions, sessionId: Option<string>): (r: Reply)
    ensures r.outcome == Ok([])
    ensures r.sessions == s[SessionKey(sessionId) := []]
  {
    var key := SessionKey(sessionId);
    var (s1, _) := GetOrCreate(s, key);
    Reply(s1[key := []], Ok([]))
  }

  /** Clearing twice is clearing once. */
  lemma ClearIdempotent(s: Sessions, sessionId: Option<string>)
    ensures ClearCart(ClearCart(s, sessionId).sessions, sessionId) == ClearCart(s, sessionId)
  {
  }

  /** A handler touches at most the cart of the request's session. */
  lemma HandlersTouchOneSession(s: Sessions, sid: Option<string>, req: AddRequest, pid: string, q: int, other: string)
    requires other in s
    ensures other != SessionKey(sid) ==>
      && UpdateItem(s, sid, pid, q).sessions[other] == s[other]
      && RemoveItem(s, sid, pid).sessions[other] == s[other]
      && ClearCart(s, sid).sessions[other] == s[other]
      && GetCart(s, sid).sessions[other] == s[other]
    ensures other != SessionKey(req.sessionId) ==> AddItem(s, req).sessions[other] == s[other]
  {
  }

  /** Every handler keeps at most one line per product in every cart. */
  lemma HandlersKeepSessionsOk(s: Sessions, sid: Option<string>, req: AddRequest, pid: string, q: int)
    requires SessionsOk(s)
    ensures SessionsOk(GetCart(s, sid).sessions)
    ensures SessionsOk(AddItem(s, req).sessions)
    ensures SessionsOk(UpdateItem(s, sid, pid, q).sessions)
    ensures SessionsOk(RemoveItem(s, sid, pid).sessions)
    ensures SessionsOk(ClearCart(s, sid).sessions)
  {
    assert Unique([]);
    var key := SessionKey(sid);
    var lines := GetOrCreate(s, key).1;
    assert SessionsOk(GetOrCreate(s, key).0) by {
      PutKeepsOk(s, key, []);
    }
    assert SessionsOk(UpdateItem(s, sid, pid, q).sessions) by {
      if Contains(lines, pid) {
        PutKeepsOk(s, key, SetLineQuantity(lines, pid, q));
      }
    }
    assert SessionsOk(RemoveItem(s, sid, pid).sessions) by {
      if Contains(lines, pid) {
        PutKeepsOk(s, key, RemoveLine(lines, pid));
      }
    }
    assert SessionsOk(AddItem(s, req).sessions) by {
      if AddAccepted(req) {
        var k2 := SessionKey(req.sessionId);
        PutKeepsOk(s, k2, []);
        var before := GetOrCreate(s, k2).1;
        PutKeepsOk(s, k2, AddLine(before, ItemOf(req), CountOr(req.quantity, 1)));
      }
    }
    PutKeepsOk(s, key, []);
  }

  /** Storing a cart with unique lines keeps every cart's lines unique. */
  lemma PutKeepsOk(s: Sessions, key: string, lines: seq<CartLine>)
    requires SessionsOk(s)
    ensures Unique(lines) ==> SessionsOk(s[key := lines])
  {
  }
}

=== FILE: keyed.dfy ===
/** Sequences of records looked up by a key: the cart's lines by product id,
    the catalog's products and the order collection by document id. The
    sequence order is the collection's natural (insertion) order. */
module Keyed {

  /** Some element has key `k`. */
  predicate Has<T, K(==)>(xs: seq<T>, key: T -> K, k: K)
  {
    exists i :: 0 <= i < |xs| && key(xs[i]) == k
  }

  /** No key occurs twice. */
  predicate Distinct<T, K(==)>(xs: seq<T>, key: T -> K)
  {
    forall i, j :: 0 <= i < j < |xs| ==> key(xs[i]) != key(xs[j])
  }

  /** Position of the first element whose key is `k`, or -1: the lookup of
      `Array.prototype.findIndex`, `findOne` and `findById`. */
  function IndexOf<T, K(==)>(xs: seq<T>, key: T -> K, k: K): (r: int)
    ensures -1 <= r < |xs|
    ensures r == -1 <==> !Has(xs, key, k)
    ensures 0 <= r ==> key(xs[r]) == k
    ensures 0 <= r ==> forall i :: 0 <= i < r ==> key(xs[i]) != k
    decreases |xs|
  {
    if |xs| == 0 then -1
    else if key(xs[0]) == k then 0
    else
      var j := IndexOf(xs[1..], key, k);
      assert forall i :: 0 < i < |xs| ==> xs[i] == xs[1..][i - 1];
      if j == -1 then -1 else j + 1
  }

  /** The elements whose key is not `k`, in their original order: the
      reference meaning of "remove the entry for `k`". */
  function Without<T, K(==)>(xs: seq<T>, key: T -> K, k: K): seq<T>
    decreases |xs|
  {
    if |xs| == 0 then []
    else (if key(xs[0]) == k then [] else [xs[0]]) + Without(xs[1..], key, k)
  }

  /** `splice(i, 1)`: drop the element at position `i`. */
  function RemoveAt<T>(xs: seq<T>, i: int): seq<T>
    requires 0 <= i < |xs|
  {
    xs[..i] + xs[i + 1..]
  }

  /** Removing the first match of a key from a collection with distinct keys
      removes every element with that key and keeps the others in order. */
  lemma {:induction false} RemoveFirstMatchIsWithout<T, K>(xs: seq<T>, key: T -> K, k: K)
    requires Distinct(xs, key)
    requires Has(xs, key, k)
    ensures RemoveAt(xs, IndexOf(xs, key, k)) == Without(xs, key, k)
    decreases |xs|
  {
    var i := IndexOf(xs, key, k);
    var t := xs[1..];
    TailFacts(xs, key);
    if i == 0 {
      WithoutAbsent(t, key, k);
      assert t == RemoveAt(xs, 0);
    } else {
      TailIndexOf(xs, key, k);
      RemoveFirstMatchIsWithout(t, key, k);
      assert RemoveAt(xs, i) == [xs[0]] + RemoveAt(t, i - 1);
    }
  }

  /** The tail of a distinct collection is distinct and lacks the head's key. */
  lemma TailFacts<T, K>(xs: seq<T>, key: T -> K)
    requires |xs| > 0
    ensures Distinct(xs, key) ==> Distinct(xs[1..], key) && !Has(xs[1..], key, key(xs[0]))
  {
    var t := xs[1..];
    assert forall j :: 0 <= j < |t| ==> t[j] == xs[j + 1];
  }

  /** A key that is not the head's is found one place further along the tail. */
  lemma TailIndexOf<T, K>(xs: seq<T>, key: T -> K, k: K)
    requires Has(xs, key, k) && key(xs[0]) != k
    ensures Has(xs[1..], key, k) && IndexOf(xs, key, k) == IndexOf(xs[1..], key, k) + 1
  {
    var j :| 0 <= j < |xs| && key(xs[j]) == k;
    assert xs[1..][j - 1] == xs[j];
  }

  /** The same, for callers that do not know the keys are distinct. */
  lemma RemoveFirstMatch<T, K>(xs: seq<T>, key: T -> K, k: K)
    requires Has(xs, key, k)
    ensures Distinct(xs, key) ==> RemoveAt(xs, IndexOf(xs, key, k)) == Without(xs, key, k)
  {
    if Distinct(xs, key) {
      RemoveFirstMatchIsWithout(xs, key, k);
    }
  }

  /** Removing an absent key changes nothing. */
  lemma {:induction false} WithoutAbsent<T, K>(xs: seq<T>, key: T -> K, k: K)
    requires !Has(xs, key, k)
    ensures Without(xs, key, k) == xs
    decreases |xs|
  {
    if |xs| > 0 {
      assert key(xs[0]) != k;
      assert forall j :: 0 <= j < |xs[1..]| ==> xs[1..][j] == xs[j + 1];
      WithoutAbsent(xs[1..], key, k);
    }
  }

  /** `Without` removes exactly key `k`: every other key keeps its presence. */
  lemma {:induction false} WithoutKeys<T, K>(xs: seq<T>, key: T -> K, k: K, k': K)
    ensures Has(Without(xs, key, k), key, k') <==> Has(xs, key, k') && k' != k
    decreases |xs|
  {
    if |xs| > 0 {
      var t := xs[1..];
      var h: seq<T> := if key(xs[0]) == k then [] else [xs[0]];
      WithoutKeys(t, key, k, k');
      var w := Without(xs, key, k);
      assert w == h + Without(t, key, k);
      if Has(w, key, k') {
        var i :| 0 <= i < |w| && key(w[i]) == k';
        if i < |h| {
          assert key(xs[0]) == k';
        } else {
          assert w[i] == Without(t, key, k)[i - |h|];
          assert Has(Without(t, key, k), key, k');
          var j :| 0 <= j < |t| && key(t[j]) == k';
          assert key(xs[j + 1]) == k';
        }
      }
      if Has(xs, key, k') && k' != k {
        var j :| 0 <= j < |xs| && key(xs[j]) == k';
        if j == 0 {
          assert w[0] == xs[0];
        } else {
          assert key(t[j - 1]) == k';
          var m :| 0 <= m < |Without(t, key, k)| && key(Without(t, key, k)[m]) == k';
          assert w[|h| + m] == Without(t, key, k)[m];
        }
      }
    }
  }

  /** `Without` keeps keys distinct. */
  lemma {:induction false} WithoutDistinct<T, K>(xs: seq<T>, key: T -> K, k: K)
    requires Distinct(xs, key)
    ensures Distinct(Without(xs, key, k), key)
    decreases |xs|
  {
    if |xs| > 0 {
      var t := xs[1..];
      assert Distinct(t, key) by {
        assert forall a, b :: 0 <= a < b < |t| ==> t[a] == xs[a + 1] && t[b] == xs[b + 1];
      }
      WithoutDistinct(t, key, k);
      if key(xs[0]) != k {
        var w := Without(t, key, k);
        forall j | 0 <= j < |w|
          ensures key(w[j]) != key(xs[0])
        {
          WithoutKeys(t, key, k, key(w[j]));
          assert Has(w, key, key(w[j]));
          var m :| 0 <= m < |t| && key(t[m]) == key(w[j]);
          assert key(xs[m + 1]) == key(w[j]);
        }
        assert Without(xs, key, k) == [xs[0]] + w;
      }
    }
  }

  /** Dropping one position keeps keys distinct. */
  lemma RemoveAtDistinct<T, K>(xs: seq<T>, key: T -> K, i: int)
    requires 0 <= i < |xs|
    ensures Distinct(xs, key) ==> Distinct(RemoveAt(xs, i), key)
  {
    var r := RemoveAt(xs, i);
    forall a, b | 0 <= a < b < |r| && Distinct(xs, key)
      ensures key(r[a]) != key(r[b])
    {
      var a' := if a < i then a else a + 1;
      var b' := if b < i then b else b + 1;
      assert r[a] == xs[a'] && r[b] == xs[b'];
    }
  }

  /** Replacing one element by another with the same key keeps keys distinct. */
  lemma ReplaceDistinct<T, K>(xs: seq<T>, key: T -> K, i: int, x: T)
    requires 0 <= i < |xs|
    requires key(x) == key(xs[i])
    ensures Distinct(xs, key) ==> Distinct(xs[i := x], key)
  {
  }

  /** Appending an element with a fresh key keeps keys distinct. */
  lemma AppendDistinct<T, K>(xs: seq<T>, key: T -> K, x: T)
    requires !Has(xs, key, key(x))
    ensures Distinct(xs, key) ==> Distinct(xs + [x], key)
  {
    var r := xs + [x];
    forall a, b | 0 <= a < b < |r| && Distinct(xs, key)
      ensures key(r[a]) != key(r[b])
    {
      if b == |xs| {
        assert r[a] == xs[a];
      }
    }
  }
}

=== FILE: legacy.dfy ===
/** The unprefixed routes of server/server.js: product reads, create and
    delete over the same catalog as the product API, and a cart of lines
    shared by every caller, with no session and no input check. */
module LegacyServer {
  import opened Outcome
  import opened Catalog
  import opened Cart
  import Keyed
  import opened Ordering
  import ProductRoutes
  import CartRoutes

  /** `GET /products`: every product, newest first. */
  function ListProducts(s: ProductRoutes.Store): (r: seq<Product>)
    ensures multiset(r) == multiset(s)
    ensures SortedBy(r, ProductRoutes.KeyOf(ProductRoutes.ByCreatedAt), true)
  {
    Sort(s, ProductRoutes.KeyOf(ProductRoutes.ByCreatedAt), true)
  }

  /** `GET /products/:id`. */
  function GetProduct(s: ProductRoutes.Store, id: string): (r: Result<Product>)
    ensures r.Err? <==> !Keyed.Has(s, ProductRoutes.ProductId, id)
    ensures r.Err? ==> r.failure == NotFound("Product not found")
    ensures r.Ok? ==> r.value in s && r.value.id == id
  {
    var i := Keyed.IndexOf(s, ProductRoutes.ProductId, id);
    if i == -1 then Err(NotFound("Product not found")) else Ok(s[i])
  }

  /** `POST /products`: no check of its own. Name, price, category, image
      (`|| undefined`) and description go to the schema; stock and
      availability are not passed, so they always take their defaults. A
      schema failure surfaces as a server error. */
  function CreateProduct(s: ProductRoutes.Store, body: ProductFields, newId: string, now: int): (r: Result<(ProductRoutes.Store, Product)>)
    requires !Keyed.Has(s, ProductRoutes.ProductId, newId)
    ensures r.Ok? <==>
      && body.name.Some? && body.price.Some? && body.category.Some?
      && NameOk(body.name.value) && PriceOk(body.price.value) && CategoryOk(body.category.value)
      && (body.description.Some? ==> DescriptionOk(body.description.value))
    ensures r.Err? ==> r.failure.ServerError?
    ensures r.Ok? ==> r.value.0 == s + [r.value.1] && r.value.1.id == newId && ValidProduct(r.value.1)
    ensures r.Ok? ==> r.value.1.name == Trim(body.name.value) && r.value.1.price == body.price.value
    ensures r.Ok? ==> r.value.1.category == body.category.value
    ensures r.Ok? ==> r.value.1.description == (if body.description.Some? then Some(Trim(body.description.value)) else None)
    ensures r.Ok? ==> r.value.1.stock == DefaultStock && r.value.1.isAvailable
    ensures r.Ok? ==> r.value.1.image == TextOr(body.image, DefaultImage)
  {
    var fields := ProductFields(
      body.name, body.price, body.category,
      if TextTruthy(body.image) then body.image else None,
      body.description, None, None);
    match Catalog.Create(newId, fields, now)
    case Err(_) => Err(ServerError("Error creating product"))
    case Ok(p) => Ok((s + [p], p))
  }

  /** The legacy create accepts a price of 0, which the product API refuses. */
  lemma ZeroPriceOnlyLegacy(s: ProductRoutes.Store, body: ProductFields, newId: string, now: int)
    requires !Keyed.Has(s, ProductRoutes.ProductId, newId)
    requires body.name.Some? && NameOk(body.name.value)
    requires body.category.Some? && CategoryOk(body.category.value)
    requires body.description.None?
    requires body.price == Some(0.0)
    ensures CreateProduct(s, body, newId, now).Ok?
    ensures ProductRoutes.CreateProduct(s, body, newId, now) == Err(Invalid("Please provide name, price, and category"))
  {
  }

  /** The legacy create ignores a supplied stock, which the product API
      stores. */
  lemma StockOnlyApi(s: ProductRoutes.Store, body: ProductFields, newId: string, now: int)
    requires !Keyed.Has(s, ProductRoutes.ProductId, newId)
    requires body.name.Some? && NameOk(body.name.value)
    requires body.category.Some? && CategoryOk(body.category.value)
    requires body.price.Some? && body.price.value > 0.0
    requires body.description.None?
    requires body.stock.Some? && body.stock.value > 0
    ensures CreateProduct(s, body, newId, now).Ok?
    ensures CreateProduct(s, body, newId, now).value.1.stock == DefaultStock
    ensures ProductRoutes.CreateProduct(s, body, newId, now).Ok?
    ensures ProductRoutes.CreateProduct(s, body, newId, now).value.1.stock == body.stock.value
  {
    assert ProductRoutes.CreateProduct(s, body, newId, now).Ok? by {
      NameOkNonEmpty(body.name.value);
      assert TextTruthy(body.name) && AmountTruthy(body.price) && TextTruthy(body.category);
      assert StockOk(CountOr(body.stock, DefaultStock));
    }
    assert ProductRoutes.CreateProduct(s, body, newId, now).value.1.stock == body.stock.value by {
      assert CountOr(body.stock, DefaultStock) == body.stock.value;
    }
    assert CreateProduct(s, body, newId, now).Ok? by {
      assert body.name.Some? && body.price.Some? && body.category.Some?;
      assert PriceOk(body.price.value);
    }
  }

  /** A name that passes the schema is not empty. */
  lemma NameOkNonEmpty(name: string)
    requires NameOk(name)
    ensures name != ""
  {
    assert |Trim(name)| <= |name|;
  }

  /** `DELETE /products/:id`. */
  function DeleteProduct(s: ProductRoutes.Store, id: string): (r: Result<ProductRoutes.Store>)
    ensures r.Err? <==> !Keyed.Has(s, ProductRoutes.ProductId, id)
    ensures r.Err? ==> r.failure == NotFound("Product not found")
    ensures r.Ok? && Keyed.Distinct(s, ProductRoutes.ProductId) ==> r.value == Keyed.Without(s, ProductRoutes.ProductId, id)
  {
    match ProductRoutes.DeleteProduct(s, id)
    case Err(e) => Err(e)
    case Ok((s1, _)) => Ok(s1)
  }

  /** The body of `POST /cart`. */
  datatype AddRequest = AddRequest(
    id: Option<string>,
    name: Option<string>,
    price: Option<real>,
    category: Option<string>,
    image: Option<string>,
    quantity: Option<int>)

  /** `GET /cart`: every line. What it reads after the other routes is
      stated by `GetAgreesWithSession` and `AddThenGet`. */
  function GetCart(cart: seq<CartLine>): (r: seq<CartLine>)
    ensures r == cart
  {
    cart
  }

  /** `POST /cart`: no check; a missing id throws on `id.toString()`. An
      existing line grows by `quantity || 1`, otherwise a line with that
      quantity is appended. */
  function AddItem(cart: seq<CartLine>, req: AddRequest): (r: Result<seq<CartLine>>)
    ensures r.Err? <==> req.id.None?
    ensures r.Err? ==> r.failure == ServerError("Error adding to cart")
    ensures r.Ok? ==> r.value == AddLine(cart, Item(req.id.value, req.name, req.price, req.category, req.image), CountOr(req.quantity, 1))
    ensures r.Ok? && Unique(cart) ==> Unique(r.value)
    ensures r.Ok? ==> Contains(r.value, req.id.value)
  {
    if req.id.None? then Err(ServerError("Error adding to cart"))
    else Ok(AddLine(cart, Item(req.id.value, req.name, req.price, req.category, req.image), CountOr(req.quantity, 1)))
  }

  /** `PUT /cart/:id`: not-found when absent; at or below zero the line is
      deleted, otherwise its quantity is overwritten. */
  function UpdateItem(cart: seq<CartLine>, productId: string, quantity: int): (r: Result<seq<CartLine>>)
    ensures r.Err? <==> !Contains(cart, productId)
    ensures r.Err? ==> r.failure == NotFound("Item not found in cart")
    ensures r.Ok? ==> r.value == SetLineQuantity(cart, productId, quantity)
    ensures r.Ok? && Unique(cart) ==> Unique(r.value)
    ensures r.Ok? && quantity <= 0 && Unique(cart) ==> !Contains(r.value, productId)
  {
    if Find(cart, productId) == -1 then Err(NotFound("Item not found in cart"))
    else
      RemoveUnique(cart, productId);
      Ok(SetLineQuantity(cart, productId, quantity))
  }

  /** `DELETE /cart/:id`: never fails; an absent product leaves the cart as
      it was. */
  function RemoveItem(cart: seq<CartLine>, productId: string): (r: seq<CartLine>)
    ensures !Contains(cart, productId) ==> r == cart
    ensures Contains(cart, productId) ==> |r| == |cart| - 1
    ensures Unique(cart) ==> r == Keyed.Without(cart, LineKey, productId)
  {
    if Find(cart, productId) == -1 then
      Keyed.WithoutAbsent(cart, LineKey, productId);
      cart
    else RemoveLine(cart, productId)
  }

  /** `DELETE /cart`: every line is removed. `ClearAgreesWithSession` and
      `AddAfterClear` relate it to the session route and to a later add. */
  function ClearCart(cart: seq<CartLine>): (r: seq<CartLine>)
    ensures r == []
  {
    []
  }

  /** Both read routes answer with the lines stored for the cart they read. */
  lemma GetAgreesWithSession(s: CartRoutes.Sessions, sid: Option<string>)
    ensures GetCart(CartRoutes.GetOrCreate(s, CartRoutes.SessionKey(sid)).1)
        == CartRoutes.GetCart(s, sid).outcome.value
  {
  }

  /** After a successful add, `GET /cart` reads a line for the product whose
      quantity is the old one (0 when there was none) plus `quantity || 1`. */
  lemma AddThenGet(cart: seq<CartLine>, req: AddRequest)
    requires req.id.Some?
    ensures AddItem(cart, req).Ok?
    ensures var after := GetCart(AddItem(cart, req).value);
      var before := if Contains(cart, req.id.value) then cart[Find(cart, req.id.value)].quantity else 0;
      && Contains(after, req.id.value)
      && after[Find(after, req.id.value)].quantity == before + CountOr(req.quantity, 1)
  {
    var id := req.id.value;
    var after := AddItem(cart, req).value;
    if Contains(cart, id) {
      var i := Find(cart, id);
      var k := Find(after, id);
      assert after[i].productId == id;
      assert k == i;
    }
  }

  /** Both clear routes leave an empty cart. */
  lemma ClearAgreesWithSession(s: CartRoutes.Sessions, sid: Option<string>)
    ensures ClearCart(CartRoutes.GetOrCreate(s, CartRoutes.SessionKey(sid)).1)
        == CartRoutes.ClearCart(s, sid).outcome.value
    ensures GetCart(ClearCart(CartRoutes.GetOrCreate(s, CartRoutes.SessionKey(sid)).1))
        == CartRoutes.ClearCart(s, sid).sessions[CartRoutes.SessionKey(sid)]
  {
  }

  /** Adding to a cleared cart makes a cart of exactly one line, holding the
      request's fields and `quantity || 1`. */
  lemma AddAfterClear(cart: seq<CartLine>, req: AddRequest)
    requires req.id.Some?
    ensures AddItem(ClearCart(cart), req)
        == Ok([CartLine(req.id.value, req.name, req.price, req.category, req.image, CountOr(req.quantity, 1))])
  {
  }

  /** For a request the session route accepts, the legacy add makes the same
      lines as the session add does to that session's cart. */
  lemma AddAgreesWithSession(s: CartRoutes.Sessions, req: CartRoutes.AddRequest)
    requires CartRoutes.AddAccepted(req)
    ensures var key := CartRoutes.SessionKey(req.sessionId);
      var legacy := AddItem(CartRoutes.GetOrCreate(s, key).1,
                            AddRequest(req.id, req.name, req.price, req.category, req.image, req.quantity));
      legacy == CartRoutes.AddItem(s, req).outcome
  {
  }

  /** The legacy add accepts what the session add refuses: a missing name and
      a price of 0. */
  lemma AddAcceptsUnchecked(cart: seq<CartLine>, s: CartRoutes.Sessions)
    ensures AddItem(cart, AddRequest(Some("p1"), None, Some(0.0), None, None, None)).Ok?
    ensures CartRoutes.AddItem(s, CartRoutes.AddRequest(Some("p1"), None, Some(0.0), None, None, None, None)).outcome.Err?
  {
  }

  /** Both update routes make the same lines from the same cart. */
  lemma UpdateAgreesWithSession(s: CartRoutes.Sessions, sid: Option<string>, productId: string, quantity: int)
    ensures var key := CartRoutes.SessionKey(sid);
      UpdateItem(CartRoutes.GetOrCreate(s, key).1, productId, quantity) == CartRoutes.UpdateItem(s, sid, productId, quantity).outcome
  {
  }

  /** Removing an absent product: the legacy route succeeds with the cart
      unchanged where the session route answers not-found. */
  lemma RemoveAbsentDiffers(s: CartRoutes.Sessions, sid: Option<string>, productId: string)
    requires !Contains(CartRoutes.GetOrCreate(s, CartRoutes.SessionKey(sid)).1, productId)
    ensures var lines := CartRoutes.GetOrCreate(s, CartRoutes.SessionKey(sid)).1;
      RemoveItem(lines, productId) == lines
    ensures CartRoutes.RemoveItem(s, sid, productId).outcome == Err(NotFound("Item not found in cart"))
  {
  }
}

=== FILE: order.dfy ===
/** The order document (server/models/Order.js): the five statuses, the
    line items held by value, and the schema's required fields and defaults. */
module OrderModel {
  import opened Outcome

  const DefaultPaymentMethod := "Cash on Delivery"

  datatype Status = Pending | Processing | Shipped | Delivered | Cancelled

  /** The status strings the schema's enum admits, in declaration order. */
  const StatusNames: seq<string> := ["Pending", "Processing", "Shipped", "Delivered", "Cancelled"]

  function NameOf(st: Status): string
  {
    match st
    case Pending => "Pending"
    case Processing => "Processing"
    case Shipped => "Shipped"
    case Delivered => "Delivered"
    case Cancelled => "Cancelled"
  }

  /** Reading a status string: defined exactly on the five enum values, and
      the inverse of `NameOf` there. */
  function ParseStatus(s: string): (r: Option<Status>)
    ensures r.Some? <==> s in StatusNames
    ensures r.Some? ==> NameOf(r.value) == s
  {
    if s == "Pending" then Some(Pending)
    else if s == "Processing" then Some(Processing)
    else if s == "Shipped" then Some(Shipped)
    else if s == "Delivered" then Some(Delivered)
    else if s == "Cancelled" then Some(Cancelled)
    else None
  }

  /** Naming a status and reading it back gives the same status. */
  lemma StatusRoundTrip(st: Status)
    ensures ParseStatus(NameOf(st)) == Some(st)
    ensures NameOf(st) in StatusNames
  {
  }

  /** One ordered line, copied by value at checkout: later catalog edits
      cannot reach it. `productId` is only a reference. */
  datatype OrderItem = OrderItem(
    productId: Option<string>,
    name: Option<string>,
    price: Option<real>,
    quantity: int,
    image: Option<string>)

  datatype ShippingAddress = ShippingAddress(
    fullName: string,
    address: string,
    city: string,
    postalCode: string,
    phone: string)

  /** A stored order. Times are abstract clock readings. */
  datatype Order = Order(
    id: string,
    user: string,
    items: seq<OrderItem>,
    totalAmount: real,
    shippingAddress: Option<ShippingAddress>,
    status: Status,
    paymentMethod: string,
    isPaid: bool,
    paidAt: Option<int>,
    deliveredAt: Option<int>,
    createdAt: int,
    updatedAt: int)

  /** The payment stamps hang together: a delivered stamp comes with payment,
      and payment with a payment stamp. */
  predicate PaymentConsistent(o: Order)
  {
    (o.deliveredAt.Some? ==> o.isPaid && o.paidAt.Some?) && (o.isPaid ==> o.paidAt.Some?)
  }

  /** `Order.create` on the given fields: `user` and `totalAmount` are
      required (the save throws without them); status, payment method and
      payment flag take their defaults when absent. */
  function NewOrder(
    id: string, user: Option<string>, items: seq<OrderItem>, totalAmount: Option<real>,
    shippingAddress: Option<ShippingAddress>, paymentMethod: Option<string>, status: Option<Status>,
    now: int): (r: Result<Order>)
    ensures r.Ok? <==> user.Some? && totalAmount.Some?
    ensures r.Err? ==> r.failure.ServerError?
    ensures r.Ok? ==>
      && r.value.id == id && r.value.user == user.value && r.value.items == items
      && r.value.totalAmount == totalAmount.value && r.value.shippingAddress == shippingAddress
      && r.value.status == (if status.Some? then status.value else Pending)
      && r.value.paymentMethod == (if paymentMethod.Some? then paymentMethod.value else DefaultPaymentMethod)
      && !r.value.isPaid && r.value.paidAt.None? && r.value.deliveredAt.None?
      && r.value.createdAt == now && r.value.updatedAt == now
    ensures r.Ok? ==> PaymentConsistent(r.value)
  {
    if user.None? || totalAmount.None? then Err(ServerError("Error creating order"))
    else
      Ok(Order(
        id, user.value, items, totalAmount.value, shippingAddress,
        if status.Some? then status.value else Pending,
        if paymentMethod.Some? then paymentMethod.value else DefaultPaymentMethod,
        false, None, None, now, now))
  }
}

=== FILE: order_routes.dfy ===
/** The order API (server/routes/orderRoutes.js) over the order collection,
    held as a sequence of orders in collection order. The caller is the
    identity the authentication middleware resolved; the admin-only routes
    are modelled as already admitted by it. An error reply leaves the
    collection as it was: every handler returns before writing. */
module OrderRoutes {
  import opened Outcome
  import opened OrderModel
  import Keyed
  import opened Ordering

  type Store = seq<Order>

  function OrderId(o: Order): string { o.id }

  /** The collection invariant: ids are distinct and payment stamps agree. */
  predicate StoreOk(s: Store)
  {
    Keyed.Distinct(s, OrderId) && forall i :: 0 <= i < |s| ==> PaymentConsistent(s[i])
  }

  /** The caller, as `{userId, role}`. */
  datatype Identity = Identity(userId: string, role: string)

  predicate IsAdmin(who: Identity) { who.role == "admin" }

  /** The body of `POST /api/orders`. */
  datatype PlaceRequest = PlaceRequest(
    items: Option<seq<OrderItem>>,
    totalAmount: Option<real>,
    shippingAddress: Option<ShippingAddress>,
    paymentMethod: Option<string>)

  /** `POST /api/orders`: refused without items; otherwise a Pending order
      owned by the caller, with the items and the total exactly as sent (the
      total is not recomputed) and `paymentMethod || 'Cash on Delivery'`. */
  function PlaceOrder(s: Store, caller: Identity, req: PlaceRequest, newId: string, now: int): (r: Result<(Store, Order)>)
    requires !Keyed.Has(s, OrderId, newId)
    ensures req.items.None? || req.items.value == [] ==> r == Err(Invalid("No items in order"))
    ensures r.Ok? <==> req.items.Some? && req.items.value != [] && req.totalAmount.Some?
    ensures r.Err? && req.items.Some? && req.items.value != [] ==> r.failure == ServerError("Error creating order")
    ensures r.Ok? ==> r.value.0 == s + [r.value.1]
    ensures r.Ok? ==>
      var o := r.value.1;
      && o.id == newId && o.user == caller.userId && o.status == Pending && !o.isPaid
      && o.items == req.items.value && o.totalAmount == req.totalAmount.value
      && o.shippingAddress == req.shippingAddress
      && o.paymentMethod == TextOr(req.paymentMethod, DefaultPaymentMethod)
      && o.createdAt == now
  {
    if req.items.None? || req.items.value == [] then Err(Invalid("No items in order"))
    else
      match NewOrder(newId, Some(caller.userId), req.items.value, req.totalAmount, req.shippingAddress,
                     Some(TextOr(req.paymentMethod, DefaultPaymentMethod)), Some(Pending), now)
      case Err(e) => Err(e)
      case Ok(o) => Ok((s + [o], o))
  }

  /** Placing an order keeps the collection invariant. */
  lemma PlaceKeepsStoreOk(s: Store, caller: Identity, req: PlaceRequest, newId: string, now: int)
    requires StoreOk(s)
    requires !Keyed.Has(s, OrderId, newId)
    requires PlaceOrder(s, caller, req, newId, now).Ok?
    ensures StoreOk(PlaceOrder(s, caller, req, newId, now).value.0)
  {
    var o := PlaceOrder(s, caller, req, newId, now).value.1;
    Keyed.AppendDistinct(s, OrderId, o);
    var r := s + [o];
    forall i | 0 <= i < |r|
      ensures PaymentConsistent(r[i])
    {
      if i < |s| {
        assert r[i] == s[i];
      }
    }
  }

  /** The orders of one user, in collection order, each as many times as
      the collection holds it. */
  function OwnedBy(s: Store, userId: string): (r: Store)
    ensures forall o :: o in r <==> o in s && o.user == userId
    ensures forall o :: multiset(r)[o] == if o.user == userId then multiset(s)[o] else 0
    decreases |s|
  {
    if |s| == 0 then []
    else
      var head := if s[0].user == userId then [s[0]] else [];
      var rest := OwnedBy(s[1..], userId);
      assert s == [s[0]] + s[1..];
      assert multiset(s) == multiset{s[0]} + multiset(s[1..]);
      assert multiset(head + rest) == multiset(head) + multiset(rest);
      assert forall o :: o in s <==> o == s[0] || o in s[1..];
      head + rest
  }

  function CreatedKey(o: Order): SortVal { Num(o.createdAt as real) }

  /** The response body of the listing routes. */
  datatype OrderList = OrderList(count: int, orders: seq<Order>)

  /** `GET /api/orders/my-orders`: exactly the caller's orders, newest first. */
  function MyOrders(s: Store, caller: Identity): (r: OrderList)
    ensures r.count == |r.orders|
    ensures multiset(r.orders) == multiset(OwnedBy(s, caller.userId))
    ensures forall o :: o in r.orders <==> o in s && o.user == caller.userId
    ensures SortedBy(r.orders, CreatedKey, true)
  {
    var owned := OwnedBy(s, caller.userId);
    var sorted := Sort(owned, CreatedKey, true);
    SortSameElements(owned, CreatedKey, true);
    OrderList(|sorted|, sorted)
  }

  /** `GET /api/orders/admin/all`: every order, newest first. */
  function AllOrders(s: Store): (r: OrderList)
    ensures r.count == |r.orders| && r.count == |s|
    ensures multiset(r.orders) == multiset(s)
    ensures SortedBy(r.orders, CreatedKey, true)
  {
    var sorted := Sort(s, CreatedKey, true);
    SortSameElements(s, CreatedKey, true);
    OrderList(|sorted|, sorted)
  }

  /** The first order in a newest-first listing is at least as new as every
      other listed order. */
  lemma NewestFirst(s: Store, caller: Identity)
    requires |MyOrders(s, caller).orders| > 0
    ensures forall o :: o in MyOrders(s, caller).orders ==>
      o.createdAt <= MyOrders(s, caller).orders[0].createdAt
  {
    var r := MyOrders(s, caller).orders;
    forall o | o in r
      ensures o.createdAt <= r[0].createdAt
    {
      var j :| 0 <= j < |r| && r[j] == o;
      if j > 0 {
        assert Before(CreatedKey(r[0]), CreatedKey(r[j]), true);
      }
    }
  }

  /** `GET /api/orders/:id`: not-found when absent; forbidden exactly when
      the caller neither owns the order nor is an admin. */
  function GetOrder(s: Store, id: string, caller: Identity): (r: Result<Order>)
    ensures !Keyed.Has(s, OrderId, id) ==> r == Err(NotFound("Order not found"))
    ensures Keyed.Has(s, OrderId, id) ==>
      var o := s[Keyed.IndexOf(s, OrderId, id)];
      && (r.Err? <==> o.user != caller.userId && !IsAdmin(caller))
      && (r.Err? ==> r.failure == Forbidden("Not authorized to view this order"))
      && (r.Ok? ==> r.value == o)
    ensures r.Ok? ==> r.value in s && r.value.id == id
  {
    var i := Keyed.IndexOf(s, OrderId, id);
    if i == -1 then Err(NotFound("Order not found"))
    else if s[i].user != caller.userId && !IsAdmin(caller) then Err(Forbidden("Not authorized to view this order"))
    else Ok(s[i])
  }

  /** The owner and any admin can read an existing order; anyone else is
      refused with 403. */
  lemma ReadAccess(s: Store, id: string, owner: Identity, admin: Identity, stranger: Identity)
    requires Keyed.Has(s, OrderId, id)
    requires owner.userId == s[Keyed.IndexOf(s, OrderId, id)].user
    requires IsAdmin(admin)
    requires stranger.userId != s[Keyed.IndexOf(s, OrderId, id)].user && !IsAdmin(stranger)
    ensures GetOrder(s, id, owner).Ok? && GetOrder(s, id, admin).Ok?
    ensures GetOrder(s, id, stranger) == Err(Forbidden("Not authorized to view this order"))
  {
  }

  /** The order after its status is set at time `now`: Delivered also marks
      it paid and stamps payment and delivery; any other status leaves those
      fields alone. The save stamps `updatedAt` only when it modifies the
      document, so a non-Delivered status set to its current value keeps the
      old stamp. */
  function WithStatus(o: Order, st: Status, now: int): Order
  {
    var modified := st != o.status || st == Delivered;
    var o1 := o.(status := st, updatedAt := if modified then now else o.updatedAt);
    if st == Delivered then o1.(isPaid := true, paidAt := Some(now), deliveredAt := Some(now)) else o1
  }

  /** `PUT /api/orders/:id/status`: the status string is checked before any
      lookup; then not-found when absent; then the status is overwritten. */
  function SetStatus(s: Store, id: string, status: string, now: int): (r: Result<(Store, Order)>)
    ensures status !in StatusNames ==> r == Err(Invalid("Invalid status"))
    ensures status in StatusNames && !Keyed.Has(s, OrderId, id) ==> r == Err(NotFound("Order not found"))
    ensures r.Ok? <==> status in StatusNames && Keyed.Has(s, OrderId, id)
    ensures r.Ok? ==>
      var i := Keyed.IndexOf(s, OrderId, id);
      var before := s[i];
      var o := r.value.1;
      && |r.value.0| == |s| && r.value.0[i] == o
      && (forall j :: 0 <= j < |s| && j != i ==> r.value.0[j] == s[j])
      && NameOf(o.status) == status
      && o.id == before.id && o.user == before.user && o.items == before.items
      && o.totalAmount == before.totalAmount && o.shippingAddress == before.shippingAddress
      && o.paymentMethod == before.paymentMethod && o.createdAt == before.createdAt
      && o.updatedAt == (if status != "Delivered" && o.status == before.status then before.updatedAt else now)
      && (status == "Delivered" ==> o.isPaid && o.paidAt == Some(now) && o.deliveredAt == Some(now))
      && (status != "Delivered" ==>
            o.isPaid == before.isPaid && o.paidAt == before.paidAt && o.deliveredAt == before.deliveredAt)
  {
    match ParseStatus(status)
    case None => Err(Invalid("Invalid status"))
    case Some(st) =>
      var i := Keyed.IndexOf(s, OrderId, id);
      if i == -1 then Err(NotFound("Order not found"))
      else
        var o := WithStatus(s[i], st, now);
        assert s[i := o][i] == o;
        Ok((s[i := o], o))
  }

  /** An invalid status is refused even for an order that does not exist. */
  lemma InvalidStatusBeforeLookup(s: Store, id: string, now: int)
    requires !Keyed.Has(s, OrderId, id)
    ensures SetStatus(s, id, "Bogus", now) == Err(Invalid("Invalid status"))
  {
  }

  /** Any existing order can be moved to any of the five statuses: the route
      enforces no ordering. */
  lemma AnyTransitionAccepted(s: Store, id: string, st: Status, now: int)
    requires Keyed.Has(s, OrderId, id)
    ensures SetStatus(s, id, NameOf(st), now).Ok?
    ensures SetStatus(s, id, NameOf(st), now).value.1.status == st
  {
    StatusRoundTrip(st);
  }

  /** Setting a non-Delivered order to the status it already has saves an
      unmodified document: the collection and the order stay exactly as they
      were, `updatedAt` included. */
  lemma SameStatusIsNoChange(s: Store, id: string, now: int)
    requires Keyed.Has(s, OrderId, id)
    requires s[Keyed.IndexOf(s, OrderId, id)].status != Delivered
    ensures var before := s[Keyed.IndexOf(s, OrderId, id)];
      SetStatus(s, id, NameOf(before.status), now) == Ok((s, before))
  {
    var i := Keyed.IndexOf(s, OrderId, id);
    var o := s[i];
    StatusRoundTrip(o.status);
    assert WithStatus(o, o.status, now) == o;
    assert s[i := o] == s;
  }

  /** Moving a delivered order back to Pending keeps it paid, with its stamps. */
  lemma RegressionKeepsPayment(s: Store, id: string, now: int)
    requires Keyed.Has(s, OrderId, id)
    requires s[Keyed.IndexOf(s, OrderId, id)].status == Delivered
    ensures var r := SetStatus(s, id, "Pending", now);
      && r.Ok? && r.value.1.status == Pending
      && r.value.1.isPaid == s[Keyed.IndexOf(s, OrderId, id)].isPaid
      && r.value.1.deliveredAt == s[Keyed.IndexOf(s, OrderId, id)].deliveredAt
  {
  }

  /** Setting a status keeps the collection invariant. */
  lemma SetStatusKeepsStoreOk(s: Store, id: string, status: string, now: int)
    requires StoreOk(s)
    requires SetStatus(s, id, status, now).Ok?
    ensures StoreOk(SetStatus(s, id, status, now).value.0)
  {
    var i := Keyed.IndexOf(s, OrderId, id);
    var r := SetStatus(s, id, status, now).value.0;
    Keyed.ReplaceDistinct(s, OrderId, i, r[i]);
    assert r == s[i := r[i]];
    forall j | 0 <= j < |r|
      ensures PaymentConsistent(r[j])
    {
      if j != i {
        assert r[j] == s[j];
      }
    }
  }

  /** `DELETE /api/orders/:id`: not-found when absent; otherwise exactly that
      order is removed and the others keep their order. */
  function DeleteOrder(s: Store, id: string): (r: Result<Store>)
    ensures r.Err? <==> !Keyed.Has(s, OrderId, id)
    ensures r.Err? ==> r.failure == NotFound("Order not found")
    ensures r.Ok? ==> |r.value| == |s| - 1
    ensures r.Ok? && Keyed.Distinct(s, OrderId) ==> r.value == Keyed.Without(s, OrderId, id)
  {
    var i := Keyed.IndexOf(s, OrderId, id);
    if i == -1 then Err(NotFound("Order not found"))
    else
      Keyed.RemoveFirstMatch(s, OrderId, id);
      Ok(Keyed.RemoveAt(s, i))
  }

  /** After a delete the order is gone and every other order is still there. */
  lemma DeleteRemovesExactlyOne(s: Store, id: string, other: string)
    requires StoreOk(s)
    requires DeleteOrder(s, id).Ok?
    ensures !Keyed.Has(DeleteOrder(s, id).value, OrderId, id)
    ensures other != id ==> (Keyed.Has(DeleteOrder(s, id).value, OrderId, other) <==> Keyed.Has(s, OrderId, other))
  {
    Keyed.WithoutKeys(s, OrderId, id, id);
    Keyed.WithoutKeys(s, OrderId, id, other);
  }

  /** Deleting an order keeps the collection invariant. */
  lemma DeleteKeepsStoreOk(s: Store, id: string)
    requires StoreOk(s)
    requires DeleteOrder(s, id).Ok?
    ensures StoreOk(DeleteOrder(s, id).value)
  {
    var i := Keyed.IndexOf(s, OrderId, id);
    Keyed.RemoveAtDistinct(s, OrderId, i);
    var r := Keyed.RemoveAt(s, i);
    forall j | 0 <= j < |r|
      ensures PaymentConsistent(r[j])
    {
      assert r[j] == if j < i then s[j] else s[j + 1];
    }
  }
}

=== FILE: ordering.dfy ===
/** The document store's `sort` on one field: ascending or descending on a
    numeric value (price, creation time) or a string (name). Strings compare
    character by character on their code points, numbers before strings as in
    the store's type order. The sort itself is a stable insertion sort; the
    store promises only the order, not which of two equal keys comes first. */
module Ordering {

  /** The value of the sort field of one document. */
  datatype SortVal = Num(n: real) | Text(s: string)

  /** Lexicographic order on strings: a prefix comes first. */
  predicate LexLe(a: string, b: string)
    decreases |a|
  {
    |a| == 0 || (|b| > 0 && (a[0] < b[0] || (a[0] == b[0] && LexLe(a[1..], b[1..]))))
  }

  predicate ValLe(a: SortVal, b: SortVal)
  {
    match (a, b)
    case (Num(x), Num(y)) => x <= y
    case (Text(x), Text(y)) => LexLe(x, y)
    case (Num(_), Text(_)) => true
    case (Text(_), Num(_)) => false
  }

  /** `a` may precede `b` in a sort with the given direction. */
  predicate Before(a: SortVal, b: SortVal, desc: bool)
  {
    if desc then ValLe(b, a) else ValLe(a, b)
  }

  predicate SortedBy<T>(xs: seq<T>, f: T -> SortVal, desc: bool)
  {
    forall i, j :: 0 <= i < j < |xs| ==> Before(f(xs[i]), f(xs[j]), desc)
  }

  lemma {:induction false} LexLeTotal(a: string, b: string)
    ensures LexLe(a, b) || LexLe(b, a)
    decreases |a|
  {
    if |a| > 0 && |b| > 0 && a[0] == b[0] {
      LexLeTotal(a[1..], b[1..]);
    }
  }

  lemma {:induction false} LexLeTransitive(a: string, b: string, c: string)
    requires LexLe(a, b) && LexLe(b, c)
    ensures LexLe(a, c)
    decreases |a|
  {
    if |a| > 0 && a[0] == b[0] && b[0] == c[0] {
      LexLeTransitive(a[1..], b[1..], c[1..]);
    }
  }

  /** Any two sort values can be placed in some order. */
  lemma BeforeTotal(a: SortVal, b: SortVal, desc: bool)
    ensures Before(a, b, desc) || Before(b, a, desc)
  {
    if a.Text? && b.Text? {
      LexLeTotal(a.s, b.s);
    }
  }

  lemma BeforeTransitive(a: SortVal, b: SortVal, c: SortVal, desc: bool)
    requires Before(a, b, desc) && Before(b, c, desc)
    ensures Before(a, c, desc)
  {
    if a.Text? && b.Text? && c.Text? {
      if desc {
        LexLeTransitive(c.s, b.s, a.s);
      } else {
        LexLeTransitive(a.s, b.s, c.s);
      }
    }
  }

  /** Place `x` in front of the first element it may precede. */
  function Insert<T>(x: T, xs: seq<T>, f: T -> SortVal, desc: bool): (r: seq<T>)
    requires SortedBy(xs, f, desc)
    ensures multiset(r) == multiset(xs) + multiset{x}
    ensures SortedBy(r, f, desc)
    decreases |xs|
  {
    if |xs| == 0 then [x]
    else if Before(f(x), f(xs[0]), desc) then
      InsertFrontSorted(x, xs, f, desc);
      [x] + xs
    else
      BeforeTotal(f(x), f(xs[0]), desc);
      var rest := Insert(x, xs[1..], f, desc);
      assert xs == [xs[0]] + xs[1..];
      HeadBeforeAll(xs[0], x, xs[1..], rest, f, desc);
      [xs[0]] + rest
  }

  lemma InsertFrontSorted<T>(x: T, xs: seq<T>, f: T -> SortVal, desc: bool)
    requires SortedBy(xs, f, desc)
    requires |xs| > 0 && Before(f(x), f(xs[0]), desc)
    ensures SortedBy([x] + xs, f, desc)
  {
    var r := [x] + xs;
    forall i, j | 0 <= i < j < |r|
      ensures Before(f(r[i]), f(r[j]), desc)
    {
      if i == 0 && j > 1 {
        BeforeTransitive(f(x), f(xs[0]), f(xs[j - 1]), desc);
      }
    }
  }

  /** Prepending `h` to a sorted `rest` built from `tail` and `x` keeps it
      sorted when `h` may precede `x` and every element of `tail`. */
  lemma HeadBeforeAll<T>(h: T, x: T, tail: seq<T>, rest: seq<T>, f: T -> SortVal, desc: bool)
    requires SortedBy([h] + tail, f, desc)
    requires Before(f(h), f(x), desc)
    requires SortedBy(rest, f, desc)
    requires multiset(rest) == multiset(tail) + multiset{x}
    ensures SortedBy([h] + rest, f, desc)
  {
    var r := [h] + rest;
    forall j | 0 < j < |r|
      ensures Before(f(h), f(r[j]), desc)
    {
      var y := rest[j - 1];
      assert r[j] == y;
      assert y in multiset(rest);
      if y != x {
        assert y in multiset(tail);
        assert y in tail;
        var m :| 0 <= m < |tail| && tail[m] == y;
        var ht := [h] + tail;
        assert ht[0] == h && ht[m + 1] == y;
        assert Before(f(ht[0]), f(ht[m + 1]), desc);
      }
    }
  }

  /** Insertion sort: a sorted permutation of `xs`. */
  function Sort<T>(xs: seq<T>, f: T -> SortVal, desc: bool): (r: seq<T>)
    ensures multiset(r) == multiset(xs)
    ensures SortedBy(r, f, desc)
    decreases |xs|
  {
    if |xs| == 0 then []
    else
      assert xs == [xs[0]] + xs[1..];
      Insert(xs[0], Sort(xs[1..], f, desc), f, desc)
  }

  /** A sorted permutation keeps exactly the elements it was given. */
  lemma SortSameElements<T>(xs: seq<T>, f: T -> SortVal, desc: bool)
    ensures |Sort(xs, f, desc)| == |xs|
    ensures forall x :: x in Sort(xs, f, desc) <==> x in xs
  {
    var r := Sort(xs, f, desc);
    assert |multiset(r)| == |multiset(xs)|;
    forall x
      ensures x in r <==> x in xs
    {
      assert x in r <==> x in multiset(r);
      assert x in xs <==> x in multiset(xs);
    }
  }
}

=== FILE: outcome.dfy ===
/** Values and error responses shared by every route of the storefront API,
    together with the JavaScript truthiness tests the handlers rely on. */
module Outcome {

  datatype Option<+T> = None | Some(value: T)

  /** The error responses the handlers send. Each carries the message text of
      the JSON envelope; the HTTP status is a function of the kind. */
  datatype Failure =
    | Invalid(message: string)      // 400: missing or malformed input
    | Forbidden(message: string)    // 403: authenticated but not allowed
    | NotFound(message: string)     // 404: no such entity
    | ServerError(message: string)  // 500: the handler threw on this input

  function HttpStatus(f: Failure): int
  {
    match f
    case Invalid(_) => 400
    case Forbidden(_) => 403
    case NotFound(_) => 404
    case ServerError(_) => 500
  }

  /** The outcome of one request: a value or an error response. */
  datatype Result<+T> = Ok(value: T) | Err(failure: Failure)

  /** `if (s)` on an optional string field: undefined and "" are falsy. */
  predicate TextTruthy(s: Option<string>)
  {
    s.Some? && s.value != ""
  }

  /** `if (n)` on an optional number field: undefined and 0 are falsy. */
  predicate AmountTruthy(n: Option<real>)
  {
    n.Some? && n.value != 0.0
  }

  /** `if (n)` on an optional whole-number field: undefined and 0 are falsy. */
  predicate CountTruthy(n: Option<int>)
  {
    n.Some? && n.value != 0
  }

  /** `n || fallback` on an optional whole-number field. */
  function CountOr(n: Option<int>, fallback: int): int
  {
    if CountTruthy(n) then n.value else fallback
  }

  /** `s || fallback` on an optional string field. */
  function TextOr(s: Option<string>, fallback: string): string
  {
    if TextTruthy(s) then s.value else fallback
  }
}

=== FILE: product.dfy ===
/** The product document (server/models/Product.js): field constraints as a
    validity predicate, and the schema's trimming and defaults as a
    constructor that either yields a valid product or a validation error. */
module Catalog {
  import opened Outcome

  const NameMaxLength := 100
  const DescriptionMaxLength := 500
  const DefaultStock := 100
  const DefaultImage := "https://images.unsplash.com/photo-1542291026-7eec264c27ff?auto=format&fit=crop&w=400&q=80"
  const Categories: seq<string> := ["Footwear", "Apparel", "Equipment", "Accessories"]

  /** A stored product. `description` may be absent; every other field is set
      once the schema's defaults have been applied. Times are abstract clock
      readings. */
  datatype Product = Product(
    id: string,
    name: string,
    price: real,
    category: string,
    image: string,
    description: Option<string>,
    stock: int,
    isAvailable: bool,
    createdAt: int,
    updatedAt: int)

  /** The fields of a create or update body, each possibly missing. */
  datatype ProductFields = ProductFields(
    name: Option<string>,
    price: Option<real>,
    category: Option<string>,
    image: Option<string>,
    description: Option<string>,
    stock: Option<int>,
    isAvailable: Option<bool>)

  /** The characters `String.prototype.trim` removes: ECMAScript white space
      and line terminators. */
  predicate IsSpace(c: char)
  {
    || c == '\t' || c == '\n' || c == '\U{B}' || c == '\U{C}' || c == '\r' || c == ' '
    || c == '\U{A0}' || c == '\U{1680}' || ('\U{2000}' <= c <= '\U{200A}')
    || c == '\U{2028}' || c == '\U{2029}' || c == '\U{202F}' || c == '\U{205F}'
    || c == '\U{3000}' || c == '\U{FEFF}'
  }

  /** Where the run of white space starting at `i` ends. */
  function SpaceRunEnd(s: string, i: nat): (a: nat)
    requires i <= |s|
    ensures i <= a <= |s|
    ensures forall k :: i <= k < a ==> IsSpace(s[k])
    ensures a < |s| ==> !IsSpace(s[a])
    decreases |s| - i
  {
    if i < |s| && IsSpace(s[i]) then SpaceRunEnd(s, i + 1) else i
  }

  /** Where the run of white space ending at `j` starts, not going below `lo`. */
  function SpaceRunStart(s: string, lo: nat, j: nat): (b: nat)
    requires lo <= j <= |s|
    ensures lo <= b <= j
    ensures forall k :: b <= k < j ==> IsSpace(s[k])
    ensures b > lo ==> !IsSpace(s[b - 1])
    decreases j
  {
    if j > lo && IsSpace(s[j - 1]) then SpaceRunStart(s, lo, j - 1) else j
  }

  /** How many white-space characters open `s`. */
  function LeadingSpace(s: string): (a: nat)
    ensures a <= |s|
    ensures forall k :: 0 <= k < a ==> IsSpace(s[k])
    ensures a < |s| ==> !IsSpace(s[a])
  {
    SpaceRunEnd(s, 0)
  }

  /** The schema's `trim: true` setter: the slice of `s` between its leading
      and trailing white space; it is empty exactly when `s` is all white
      space. */
  function Trim(s: string): (r: string)
    ensures LeadingSpace(s) + |r| <= |s|
    ensures r == s[LeadingSpace(s)..LeadingSpace(s) + |r|]
    ensures forall k :: LeadingSpace(s) + |r| <= k < |s| ==> IsSpace(s[k])
    ensures |r| > 0 ==> !IsSpace(r[0]) && !IsSpace(r[|r| - 1])
    ensures r == "" <==> forall k :: 0 <= k < |s| ==> IsSpace(s[k])
  {
    var a := LeadingSpace(s);
    var b := SpaceRunStart(s, a, |s|);
    assert b > a ==> s[a..b][0] == s[a] && s[a..b][b - a - 1] == s[b - 1];
    s[a..b]
  }

  /** A string with no white space at either end is its own trim. */
  lemma TrimmedIsFixed(s: string)
    requires |s| == 0 || (!IsSpace(s[0]) && !IsSpace(s[|s| - 1]))
    ensures Trim(s) == s
  {
    assert s[0..|s|] == s;
  }

  /** Trimming twice is trimming once. */
  lemma TrimIdempotent(s: string)
    ensures Trim(Trim(s)) == Trim(s)
  {
    TrimmedIsFixed(Trim(s));
  }

  /** What the schema demands of a stored product. */
  predicate ValidProduct(p: Product)
  {
    && ValidName(p.name)
    && p.price >= 0.0
    && p.category in Categories
    && (p.description.Some? ==> ValidDescription(p.description.value))
    && p.stock >= 0
  }

  /** The length JavaScript reports for a string, which is what the schema's
      `maxlength` compares against: UTF-16 code units, two for each character
      outside the Basic Multilingual Plane. */
  function Utf16Length(s: string): (n: nat)
    ensures |s| <= n <= 2 * |s|
    ensures n == 0 <==> s == ""
  {
    if s == [] then 0 else (if s[0] > '\U{FFFF}' then 2 else 1) + Utf16Length(s[1..])
  }

  /** The length of a concatenation is the sum of the lengths. */
  lemma {:induction false} Utf16LengthAppend(a: string, b: string)
    ensures Utf16Length(a + b) == Utf16Length(a) + Utf16Length(b)
  {
    if a == [] {
      assert a + b == b;
    } else {
      assert (a + b)[0] == a[0];
      assert (a + b)[1..] == a[1..] + b;
      Utf16LengthAppend(a[1..], b);
    }
  }

  /** Characters outside the Basic Multilingual Plane count twice. */
  lemma {:induction false} Utf16LengthAstral(s: string)
    requires forall k :: 0 <= k < |s| ==> s[k] > '\U{FFFF}'
    ensures Utf16Length(s) == 2 * |s|
  {
    if s != [] {
      Utf16LengthAstral(s[1..]);
    }
  }

  predicate ValidName(name: string)
  {
    name != "" && Utf16Length(name) <= NameMaxLength && Trim(name) == name
  }

  predicate ValidDescription(d: string)
  {
    Utf16Length(d) <= DescriptionMaxLength && Trim(d) == d
  }

  /** The constraints on each supplied field, stated on the raw input: names
      and descriptions are measured after trimming. */
  predicate NameOk(name: string) { Trim(name) != "" && Utf16Length(Trim(name)) <= NameMaxLength }
  predicate PriceOk(price: real) { price >= 0.0 }
  predicate CategoryOk(category: string) { category in Categories }
  predicate DescriptionOk(d: string) { Utf16Length(Trim(d)) <= DescriptionMaxLength }
  predicate StockOk(stock: int) { stock >= 0 }

  /** Every field that is present meets its constraint. */
  predicate SuppliedFieldsOk(f: ProductFields)
  {
    && (f.name.Some? ==> NameOk(f.name.value))
    && (f.price.Some? ==> PriceOk(f.price.value))
    && (f.category.Some? ==> CategoryOk(f.category.value))
    && (f.description.Some? ==> DescriptionOk(f.description.value))
    && (f.stock.Some? ==> StockOk(f.stock.value))
  }

  /** The document `Product.create` would store before validation: trimmed
      strings and the defaults for image, stock and availability. */
  function Defaulted(id: string, name: string, price: real, category: string, f: ProductFields, now: int): Product
  {
    Product(
      id, Trim(name), price, category,
      if f.image.Some? then f.image.value else DefaultImage,
      if f.description.Some? then Some(Trim(f.description.value)) else None,
      if f.stock.Some? then f.stock.value else DefaultStock,
      if f.isAvailable.Some? then f.isAvailable.value else true,
      now, now)
  }

  /** `Product.create`: apply defaults and setters, then validate. Fails
      exactly when a required field is missing or a supplied field breaks its
      constraint; on success the document is valid and carries the defaults. */
  function Create(id: string, f: ProductFields, now: int): (r: Result<Product>)
    ensures r.Ok? <==> f.name.Some? && f.price.Some? && f.category.Some? && SuppliedFieldsOk(f)
    ensures r.Err? ==> r.failure == Invalid("Validation error")
    ensures r.Ok? ==> ValidProduct(r.value)
    ensures r.Ok? ==> r.value.id == id && r.value.createdAt == now && r.value.updatedAt == now
    ensures r.Ok? ==> r.value.name == Trim(f.name.value) && r.value.price == f.price.value
    ensures r.Ok? ==> r.value.category == f.category.value
    ensures r.Ok? ==> r.value.description == (if f.description.Some? then Some(Trim(f.description.value)) else None)
    ensures r.Ok? ==> r.value.stock == (if f.stock.None? then DefaultStock else f.stock.value)
    ensures r.Ok? ==> r.value.image == (if f.image.None? then DefaultImage else f.image.value)
    ensures r.Ok? ==> r.value.isAvailable == (f.isAvailable.None? || f.isAvailable.value)
  {
    if f.name.None? || f.price.None? || f.category.None? then Err(Invalid("Validation error"))
    else
      var p := Defaulted(id, f.name.value, f.price.value, f.category.value, f, now);
      DefaultedValidIff(id, f, now);
      if ValidProduct(p) then Ok(p) else Err(Invalid("Validation error"))
  }

  /** The defaulted document is valid exactly when the supplied fields meet
      their constraints. */
  lemma DefaultedValidIff(id: string, f: ProductFields, now: int)
    requires f.name.Some? && f.price.Some? && f.category.Some?
    ensures ValidProduct(Defaulted(id, f.name.value, f.price.value, f.category.value, f, now))
        <==> SuppliedFieldsOk(f)
  {
    TrimmedName(f.name.value);
    if f.description.Some? {
      TrimmedDescription(f.description.value);
    }
  }

  /** A trimmed name is a valid stored name exactly when the raw name passes. */
  lemma TrimmedName(name: string)
    ensures ValidName(Trim(name)) <==> NameOk(name)
  {
    TrimIdempotent(name);
  }

  lemma TrimmedDescription(d: string)
    ensures ValidDescription(Trim(d)) <==> DescriptionOk(d)
  {
    TrimIdempotent(d);
  }

  /** A name of 51 to 100 characters from outside the Basic Multilingual Plane
      (emoji, say) fits in 100 characters but not in 100 UTF-16 units, so the
      schema refuses it. */
  lemma AstralNameTooLong(name: string)
    requires 50 < |name| <= NameMaxLength
    requires forall k :: 0 <= k < |name| ==> name[k] > '\U{FFFF}'
    ensures !NameOk(name)
  {
    assert !IsSpace(name[0]) && !IsSpace(name[|name| - 1]);
    TrimmedIsFixed(name);
    Utf16LengthAstral(name);
  }

  /** An update body applied to a stored product: supplied fields replace the
      stored ones (strings trimmed), the others are kept. */
  function ApplyPatch(p: Product, f: ProductFields, now: int): (q: Product)
    ensures q.id == p.id && q.createdAt == p.createdAt && q.updatedAt == now
    ensures q.name == (if f.name.Some? then Trim(f.name.value) else p.name)
    ensures q.price == (if f.price.Some? then f.price.value else p.price)
    ensures q.category == (if f.category.Some? then f.category.value else p.category)
    ensures q.image == (if f.image.Some? then f.image.value else p.image)
    ensures q.description == (if f.description.Some? then Some(Trim(f.description.value)) else p.description)
    ensures q.stock == (if f.stock.Some? then f.stock.value else p.stock)
    ensures q.isAvailable == (if f.isAvailable.Some? then f.isAvailable.value else p.isAvailable)
  {
    Product(
      p.id,
      if f.name.Some? then Trim(f.name.value) else p.name,
      if f.price.Some? then f.price.value else p.price,
      if f.category.Some? then f.category.value else p.category,
      if f.image.Some? then f.image.value else p.image,
      if f.description.Some? then Some(Trim(f.description.value)) else p.description,
      if f.stock.Some? then f.stock.value else p.stock,
      if f.isAvailable.Some? then f.isAvailable.value else p.isAvailable,
      p.createdAt,
      now)
  }

  /** An update whose supplied fields pass validation keeps a valid product
      valid, and keeps its identity and creation time. */
  lemma PatchKeepsValid(p: Product, f: ProductFields, now: int)
    requires ValidProduct(p)
    requires SuppliedFieldsOk(f)
    ensures ValidProduct(ApplyPatch(p, f, now))
    ensures ApplyPatch(p, f, now).id == p.id && ApplyPatch(p, f, now).createdAt == p.createdAt
  {
    if f.name.Some? {
      TrimmedName(f.name.value);
    }
    if f.description.Some? {
      TrimmedDescription(f.description.value);
    }
  }
}

=== FILE: product_routes.dfy ===
/** The product API (server/routes/productRoutes.js) over a catalog held as a
    sequence of products in collection order. An error reply leaves the
    catalog as it was: every handler returns before writing. */
module ProductRoutes {
  import opened Outcome
  import opened Catalog
  import Keyed
  import opened Ordering

  type Store = seq<Product>

  function ProductId(p: Product): string { p.id }

  /** The catalog invariant: ids are distinct and every product is valid. */
  predicate StoreOk(s: Store)
  {
    Keyed.Distinct(s, ProductId) && forall i :: 0 <= i < |s| ==> ValidProduct(s[i])
  }

  /** The query-string parameters of `GET /api/products`. A price bound is
      present when its parameter is a non-empty string (so "0" counts), and
      its value is the number it reads as. */
  datatype ListParams = ListParams(
    category: Option<string>,
    search: Option<string>,
    minPrice: Option<real>,
    maxPrice: Option<real>,
    sort: Option<string>)

  /** The filter document the route hands to the store. */
  datatype Filter = Filter(
    category: Option<string>,
    namePattern: Option<string>,
    priceGte: Option<real>,
    priceLte: Option<real>)

  function BuildFilter(q: ListParams): Filter
  {
    Filter(
      if TextTruthy(q.category) then q.category else None,
      if TextTruthy(q.search) then q.search else None,
      q.minPrice,
      q.maxPrice)
  }

  /** The store's matching of one product against a filter.
      `nameMatch(pattern, name)` stands for the case-insensitive regular
      expression test, which is not modelled. */
  predicate Satisfies(p: Product, f: Filter, nameMatch: (string, string) -> bool)
  {
    && (f.category.Some? ==> p.category == f.category.value)
    && (f.namePattern.Some? ==> nameMatch(f.namePattern.value, p.name))
    && (f.priceGte.Some? ==> p.price >= f.priceGte.value)
    && (f.priceLte.Some? ==> p.price <= f.priceLte.value)
  }

  /** `Product.find(filter)`: the matching products in collection order,
      each as many times as the catalog holds it. */
  function Select(s: Store, f: Filter, nameMatch: (string, string) -> bool): (r: Store)
    ensures |r| <= |s|
    ensures forall p :: p in r <==> p in s && Satisfies(p, f, nameMatch)
    ensures forall p :: multiset(r)[p] == if Satisfies(p, f, nameMatch) then multiset(s)[p] else 0
    decreases |s|
  {
    if |s| == 0 then []
    else
      var rest := Select(s[1..], f, nameMatch);
      assert s == [s[0]] + s[1..];
      assert multiset(s) == multiset{s[0]} + multiset(s[1..]);
      assert forall p :: p in s <==> p == s[0] || p in s[1..];
      if Satisfies(s[0], f, nameMatch) then
        assert multiset([s[0]] + rest) == multiset{s[0]} + multiset(rest);
        [s[0]] + rest
      else rest
  }

  datatype SortField = ByPrice | ByName | ByCreatedAt
  datatype SortSpec = SortSpec(field: SortField, desc: bool)

  /** The sort option chosen from the `sort` parameter: four named options,
      and newest first for anything else. */
  function SortOf(sort: Option<string>): (r: SortSpec)
    ensures sort == Some("price_asc") <==> r == SortSpec(ByPrice, false)
    ensures sort == Some("price_desc") <==> r == SortSpec(ByPrice, true)
    ensures sort == Some("name_asc") <==> r == SortSpec(ByName, false)
    ensures sort == Some("name_desc") <==> r == SortSpec(ByName, true)
    ensures r.field == ByCreatedAt <==> sort !in {Some("price_asc"), Some("price_desc"), Some("name_asc"), Some("name_desc")}
    ensures r.field == ByCreatedAt ==> r.desc
  {
    if sort == Some("price_asc") then SortSpec(ByPrice, false)
    else if sort == Some("price_desc") then SortSpec(ByPrice, true)
    else if sort == Some("name_asc") then SortSpec(ByName, false)
    else if sort == Some("name_desc") then SortSpec(ByName, true)
    else SortSpec(ByCreatedAt, true)
  }

  function KeyOf(field: SortField): Product -> SortVal
  {
    match field
    case ByPrice => (p: Product) => Num(p.price)
    case ByName => (p: Product) => Text(p.name)
    case ByCreatedAt => (p: Product) => Num(p.createdAt as real)
  }

  /** The response body of the list route. */
  datatype Listing = Listing(count: int, data: seq<Product>)

  /** `GET /api/products`: the matching products, sorted by the chosen key,
      with their number. */
  function List(s: Store, q: ListParams, nameMatch: (string, string) -> bool): (r: Listing)
    ensures r.count == |r.data|
    ensures multiset(r.data) == multiset(Select(s, BuildFilter(q), nameMatch))
    ensures SortedBy(r.data, KeyOf(SortOf(q.sort).field), SortOf(q.sort).desc)
  {
    var spec := SortOf(q.sort);
    var data := Sort(Select(s, BuildFilter(q), nameMatch), KeyOf(spec.field), spec.desc);
    Listing(|data|, data)
  }

  /** A product is listed exactly when it is in the catalog, has the requested
      category when one is given, passes the name search when one is given,
      and lies within each supplied price bound, both bounds inclusive. */
  lemma ListMembership(s: Store, q: ListParams, nameMatch: (string, string) -> bool, p: Product)
    ensures p in List(s, q, nameMatch).data <==>
      && p in s
      && (TextTruthy(q.category) ==> p.category == q.category.value)
      && (TextTruthy(q.search) ==> nameMatch(q.search.value, p.name))
      && (q.minPrice.Some? ==> q.minPrice.value <= p.price)
      && (q.maxPrice.Some? ==> p.price <= q.maxPrice.value)
  {
    var sel := Select(s, BuildFilter(q), nameMatch);
    var data := List(s, q, nameMatch).data;
    assert p in data <==> p in multiset(data);
    assert p in sel <==> p in multiset(sel);
  }

  /** Without a category the listing is the same whatever category parameter
      was falsy: "" and a missing parameter select the same products. */
  lemma EmptyCategoryIsNoCategory(s: Store, q: ListParams, nameMatch: (string, string) -> bool)
    requires q.category == Some("")
    ensures List(s, q, nameMatch) == List(s, q.(category := None), nameMatch)
  {
  }

  /** `POST /api/products`: the route's own falsy check, then `stock || 100`
      and `image || undefined`, then the schema. A price of 0 and a stock of 0
      are both falsy: the first is refused, the second becomes 100. */
  function CreateProduct(s: Store, body: ProductFields, newId: string, now: int): (r: Result<(Store, Product)>)
    requires !Keyed.Has(s, ProductId, newId)
    ensures !TextTruthy(body.name) || !AmountTruthy(body.price) || !TextTruthy(body.category) ==>
      r == Err(Invalid("Please provide name, price, and category"))
    ensures r.Ok? <==>
      && TextTruthy(body.name) && AmountTruthy(body.price) && TextTruthy(body.category)
      && NameOk(body.name.value) && PriceOk(body.price.value) && CategoryOk(body.category.value)
      && (body.description.Some? ==> DescriptionOk(body.description.value))
      && StockOk(CountOr(body.stock, DefaultStock))
    ensures r.Err? ==> r.failure.Invalid?
    ensures r.Ok? ==> r.value.0 == s + [r.value.1]
    ensures r.Ok? ==> r.value.1.id == newId && ValidProduct(r.value.1)
    ensures r.Ok? ==> r.value.1.name == Trim(body.name.value) && r.value.1.price == body.price.value
    ensures r.Ok? ==> r.value.1.category == body.category.value
    ensures r.Ok? ==> r.value.1.description == (if body.description.Some? then Some(Trim(body.description.value)) else None)
    ensures r.Ok? ==> r.value.1.stock == CountOr(body.stock, DefaultStock)
    ensures r.Ok? ==> r.value.1.image == TextOr(body.image, DefaultImage)
    ensures r.Ok? ==> r.value.1.isAvailable
  {
    if !TextTruthy(body.name) || !AmountTruthy(body.price) || !TextTruthy(body.category) then
      Err(Invalid("Please provide name, price, and category"))
    else
      var fields := ProductFields(
        body.name, body.price, body.category,
        if TextTruthy(body.image) then body.image else None,
        body.description,
        Some(CountOr(body.stock, DefaultStock)),
        None);
      match Catalog.Create(newId, fields, now)
      case Err(e) => Err(e)
      case Ok(p) => Ok((s + [p], p))
  }

  /** Creating a product keeps the catalog invariant. */
  lemma CreateKeepsStoreOk(s: Store, body: ProductFields, newId: string, now: int)
    requires StoreOk(s)
    requires !Keyed.Has(s, ProductId, newId)
    requires CreateProduct(s, body, newId, now).Ok?
    ensures StoreOk(CreateProduct(s, body, newId, now).value.0)
  {
    var p := CreateProduct(s, body, newId, now).value.1;
    Keyed.AppendDistinct(s, ProductId, p);
  }

  /** `GET /api/products/:id`. */
  function GetProduct(s: Store, id: string): (r: Result<Product>)
    ensures r.Err? <==> !Keyed.Has(s, ProductId, id)
    ensures r.Err? ==> r.failure == NotFound("Product not found")
    ensures r.Ok? ==> r.value in s && r.value.id == id
  {
    var i := Keyed.IndexOf(s, ProductId, id);
    if i == -1 then Err(NotFound("Product not found")) else Ok(s[i])
  }

  /** `PUT /api/products/:id` with validators on: the supplied fields are
      validated first, then the product is looked up and patched in place. */
  function UpdateProduct(s: Store, id: string, patch: ProductFields, now: int): (r: Result<(Store, Product)>)
    ensures !SuppliedFieldsOk(patch) ==> r == Err(Invalid("Validation error"))
    ensures SuppliedFieldsOk(patch) && !Keyed.Has(s, ProductId, id) ==> r == Err(NotFound("Product not found"))
    ensures r.Ok? <==> SuppliedFieldsOk(patch) && Keyed.Has(s, ProductId, id)
    ensures r.Ok? ==> |r.value.0| == |s|
    ensures r.Ok? ==> forall j :: 0 <= j < |s| && s[j].id != id ==> r.value.0[j] == s[j]
    ensures r.Ok? ==> r.value.1 in r.value.0 && r.value.1.id == id && r.value.1.updatedAt == now
    ensures r.Ok? ==> r.value.1 == ApplyPatch(s[Keyed.IndexOf(s, ProductId, id)], patch, now)
  {
    if !SuppliedFieldsOk(patch) then Err(Invalid("Validation error"))
    else
      var i := Keyed.IndexOf(s, ProductId, id);
      if i == -1 then Err(NotFound("Product not found"))
      else
        var p := ApplyPatch(s[i], patch, now);
        assert s[i := p][i] == p;
        Ok((s[i := p], p))
  }

  /** Updating a product keeps the catalog invariant. */
  lemma UpdateKeepsStoreOk(s: Store, id: string, patch: ProductFields, now: int)
    requires StoreOk(s)
    requires SuppliedFieldsOk(patch) && Keyed.Has(s, ProductId, id)
    ensures UpdateProduct(s, id, patch, now).Ok?
    ensures StoreOk(UpdateProduct(s, id, patch, now).value.0)
  {
    var i := Keyed.IndexOf(s, ProductId, id);
    var p := ApplyPatch(s[i], patch, now);
    assert UpdateProduct(s, id, patch, now).value.0 == s[i := p];
    PatchKeepsValid(s[i], patch, now);
    Keyed.ReplaceDistinct(s, ProductId, i, p);
    var r := s[i := p];
    forall j | 0 <= j < |r|
      ensures ValidProduct(r[j])
    {
      if j != i {
        assert r[j] == s[j];
      }
    }
  }

  /** `DELETE /api/products/:id`: removes exactly that product, keeping the
      others in order. */
  function DeleteProduct(s: Store, id: string): (r: Result<(Store, Product)>)
    ensures r.Err? <==> !Keyed.Has(s, ProductId, id)
    ensures r.Err? ==> r.failure == NotFound("Product not found")
    ensures r.Ok? ==> r.value.1 in s && r.value.1.id == id && |r.value.0| == |s| - 1
    ensures r.Ok? && Keyed.Distinct(s, ProductId) ==> r.value.0 == Keyed.Without(s, ProductId, id)
  {
    var i := Keyed.IndexOf(s, ProductId, id);
    if i == -1 then Err(NotFound("Product not found"))
    else
      var rest := Keyed.RemoveAt(s, i);
      assert |rest| == |s| - 1;
      assert s[i] in s;
      Keyed.RemoveFirstMatch(s, ProductId, id);
      Ok((rest, s[i]))
  }

  /** Deleting a product keeps the catalog invariant. */
  lemma DeleteKeepsStoreOk(s: Store, id: string)
    requires StoreOk(s)
    requires DeleteProduct(s, id).Ok?
    ensures StoreOk(DeleteProduct(s, id).value.0)
  {
    var i := Keyed.IndexOf(s, ProductId, id);
    Keyed.RemoveAtDistinct(s, ProductId, i);
    var r := Keyed.RemoveAt(s, i);
    forall j | 0 <= j < |r|
      ensures ValidProduct(r[j])
    {
      assert r[j] == if j < i then s[j] else s[j + 1];
    }
  }

  /** `GET /api/products/categories/list`: the distinct categories in use.
      Every product's category is listed and nothing else is; in a catalog
      that keeps its invariant each is one of the four the schema admits. */
  function CategoryList(s: Store): (r: set<string>)
    ensures forall p :: p in s ==> p.category in r
    ensures forall c :: c in r ==> exists p :: p in s && p.category == c
    ensures StoreOk(s) ==> forall c :: c in r ==> c in Categories
  {
    set i | 0 <= i < |s| :: s[i].category
  }
}
